=== FILE: README.md ===
# sqlite-worker, modelled in Dafny

`SqliteWorker` (in `sqlite_worker/main.py`) serialises every SQL statement of a
program through one background thread. The thread owns the SQLite connection.
Callers put `(token, query, values)` requests on a bounded queue. The thread
executes them in order and commits in batches. A caller that was handed a token
waits for the token's event and then pops the stored rows (or the stored error).
The task queue in `examples/task_queue/task_queue.py` is a client of the worker.
It keeps prioritised, retryable tasks in a `tasks` table.

This project models both as pure state machines and proves what they promise.

- `wrappers.dfy` (`Wrappers`): `Option` and `Result`.
- `sql.dfy` (`Sql`): SQL values, rows, statements and outcomes. The database
  itself is an `Oracle`. It maps the statements already executed plus the next
  one to that statement's rows or error.
- `text.dfy` (`Text`): `str.lower`, `str.lstrip`, `startswith`, `endswith` and
  `_is_select_query`.
- `tokens.dfy` (`Tokens`): request tokens and the `-silent` suffix.
- `engine.dfy` (`Engine`): the worker. Each public call and each pass of the
  processing loop is one atomic step on an immutable `Worker` record. The
  source's threads only choose the order of these steps. The record carries
  some history for the proofs:
  - every entry ever queued (`submitted`);
  - every statement handed to the connection (`log`);
  - how many of those the last commit covered (`committed`).

  The invariant `Engine.Inv` ties these to the live state, and every operation
  preserves it.
- `taskqueue.dfy` (`TaskQueue`): the `tasks` table as a map from id to row. Each
  `TaskQueue` method becomes a function or method on that map.

## Model

| member | source | states |
|---|---|---|
| Text.LStrip | sqlite_worker/main.py:67-68 | `lstrip()` returns a suffix of its input. Everything it removed is whitespace, and what remains does not start with whitespace. |
| Text.IsSelectQueryIff | sqlite_worker/main.py:67-68 | `_is_select_query` holds exactly when the query, after zero or more whitespace characters, spells "select" in any mix of case. |
| Tokens.HexInjective | sqlite_worker/main.py:94 | Different counters give different hex spellings. This is the model's stand-in for the uniqueness of `uuid4().hex`. |
| Tokens.MintTokenSilentIff | sqlite_worker/main.py:94-96 | A token ends with `-silent` exactly when it was minted silent, so `token.endswith(SILENT_TOKEN_SUFFIX)` recognises precisely the tokens `execute` did not hand back. |
| Tokens.MintTokenInjective | sqlite_worker/main.py:94-96 | Two minted tokens are equal only if they share both the counter and the silence. |
| Tokens.MintTokenFresh | sqlite_worker/main.py:94 | A newly minted token differs from every token minted before it. |
| Engine.New | sqlite_worker/main.py:14-25 | A new worker is open, has an empty queue and no results or events, and satisfies the invariant. It keeps `max_queue_size`, `execute_init` and `max_count` as given. |
| Engine.NewDefaults | sqlite_worker/main.py:14 | With the constructor's defaults the worker has a bounded queue of 100, no init statements and batches of 50, starts not full, and satisfies the invariant. |
| Engine.RunInit | sqlite_worker/main.py:38-39 | The init statements run in order with no parameters. Either all of them run and the flag is set, or the flag is clear and a non-empty prefix ran whose last statement raised. Every statement run before the last returned rows, and so did the last when the flag is set: the loop stops at the first statement that raises. |
| Engine.InitStmtsAt | sqlite_worker/main.py:38-39 | The statement run for the i-th init entry is that entry, with no parameters. |
| Engine.Boot | sqlite_worker/main.py:35-40 | Start-up leaves the loop running exactly when every init statement returned rows; they are then all executed and committed. If one raises, the thread is dead: the statements executed are a prefix of the init statements, in order, ending with the one that raised; every earlier one returned rows, and nothing new was committed. Start-up touches neither the queue, the events, the results nor the closed flag. |
| Engine.BootPreservesInv | sqlite_worker/main.py:35-42 | Start-up preserves the worker invariant: queue suffix, log, commit count, registry and signals. |
| Engine.PutRequest | sqlite_worker/main.py:98 | `put(timeout=5)` raises `queue.Full` exactly when a bounded queue is at capacity. Otherwise it appends the entry and leaves the phase, closed flag, batch count, commit point, token counter, log, events and results as they were. |
| Engine.RegisterToken | sqlite_worker/main.py:70-71 | `setdefault` registers the token with an unset event when it is new, leaves every existing event as it was, and changes nothing else. |
| Engine.PutHalf | sqlite_worker/main.py:94-98 | The part of `execute` before `_notify_query_begin`: `queue.Full` exactly when the queue is full, otherwise the request is queued and recorded as submitted under the new token and the token counter advances. The events are left as they were, so the token is not yet registered, and nothing else changes. |
| Engine.Execute | sqlite_worker/main.py:85-103 | On a closed worker `execute` raises `Worker is closed` and on a full queue `queue.Full`, changing nothing in either case. Otherwise it queues the request, registers the token with an unset event and advances the token counter, changing nothing else. It returns the token exactly when the query is a select or `always_return_token` is set. |
| Engine.ExecuteDefaultFlag | sqlite_worker/main.py:85-103 | With the default `always_return_token=False`, `execute` on an open worker with room succeeds and hands back a token exactly when the query is a select. |
| Engine.IssuedTokenRules | sqlite_worker/main.py:89-96 | The internal token ends with `-silent` exactly when the caller is not handed it, and it was never registered before. |
| Engine.Close | sqlite_worker/main.py:80-82 | `close` always sets the closed flag. It queues the sentinel unless the queue is full, and raises `queue.Full` exactly then. Nothing else changes. |
| Engine.QueueSize | sqlite_worker/main.py:115-117 | `queue_size` is the number of queued entries. In every reachable state, for a bounded queue, it never exceeds `max_queue_size`. |
| Engine.Step | sqlite_worker/main.py:42-78 | One pass of the loop. It exits when the worker is closed and drained, and does nothing on a `get` timeout. The queue loses exactly its head. The sentinel and empty queries are neither executed nor counted. A request is executed once; its error is always stored, its rows only under a non-silent token, and its event is set. An unregistered token kills the thread. A commit happens exactly when the batch reaches `max_count` or the queue is empty. |
| Engine.StoreOutcome | sqlite_worker/main.py:56-78 | An error is always stored under the token, and rows are stored unless the token is silent, in which case the results are unchanged. The entry of every other token is left as it was. |
| Engine.RunRequest | sqlite_worker/main.py:56-74 | Running a request appends its statement to the log and stores its outcome as the oracle gives it. If the token is registered, its event is set and nothing else is signalled. If it is not, the thread dies (`KeyError`) with the events unchanged. The queue, the batch count, the commit point and every other field outside the log, results, events and phase are not touched. |
| Engine.Fetch | sqlite_worker/main.py:105-113 | `fetch_results` returns `None` for a missing, empty or unregistered token. It waits while the token's event is unset. Once the event is set, it pops and returns the stored value, or returns `None` when nothing was stored. Only the popped result leaves the worker; nothing else changes. |
| Engine.ExecutedIgnoresSentinels | sqlite_worker/main.py:48 | Sentinels left on the queue add nothing to the statements executed. |
| Engine.MintAndRegister | sqlite_worker/main.py:70-71 | A freshly minted token is not yet registered. Registering it keeps the registry and the signals consistent, and leaves the token registered, unset and not yet queued. |
| Engine.PutPreservesInv | sqlite_worker/main.py:98-99 | On a worker whose queue is not full, queueing preserves the invariant for the sentinel, and for a request whose token is registered, unset and not yet queued while the loop has not exited. This is the corrected order of `execute`: register first, then put. |
| Engine.StepKeepsReserved | sqlite_worker/main.py:42-54 | A token that is registered but not yet queued stays registered, unset and unqueued across a loop pass, so the corrected order may queue it at any later point. |
| Engine.ExecuteRegistersFirst | sqlite_worker/main.py:94-99 | Taken as one atomic step, `execute`'s put-then-register has the same effect as register-then-put. |
| Engine.ExecutePreservesInv | sqlite_worker/main.py:85-103 | `execute`, taken as one atomic step, preserves the invariant. |
| Engine.ClosePreservesInv | sqlite_worker/main.py:80-82 | `close` preserves the invariant. |
| Engine.FetchPreservesInv | sqlite_worker/main.py:105-113 | `fetch_results` preserves the invariant. |
| Engine.StepDequeues | sqlite_worker/main.py:45 | The entry the loop takes is the oldest one not yet taken: FIFO over everything ever submitted. |
| Engine.HeadRegistered | sqlite_worker/main.py:73-74 | The request at the head of the queue has a registered, unset event, so `_notify_query_done` finds it. |
| Engine.StepLogInv | sqlite_worker/main.py:42-50 | After every pass, the statements executed are the init statements followed by the runnable dequeued requests in dequeue order. |
| Engine.StepCommitInv | sqlite_worker/main.py:48-54 | After every pass, `count` equals the number of uncommitted statements. It is below `max_count` or zero (always zero when `max_count <= 0`), and zero whenever the queue is empty. |
| Engine.StepRegistryInv | sqlite_worker/main.py:56-78 | After every pass, registered tokens are still ones `execute` minted, submitted requests still carry distinct tokens, and stored results belong to set events. |
| Engine.StepSignalInv | sqlite_worker/main.py:45-74 | After every pass, every submitted request is registered, and its event is set exactly when the loop has taken it and executed it. Requests still queued, and empty queries, stay unset. |
| Engine.StepPreservesInv | sqlite_worker/main.py:42-65 | A pass of the loop on a reachable worker preserves the invariant and never kills the thread. The number of statements it leaves uncommitted is below `max_count` or zero. |
| Engine.FetchDelivers | sqlite_worker/main.py:111-112 | After a fetch that returns a value, the token is set and holds nothing any more. |
| Engine.DeliveredIsFinal | sqlite_worker/main.py:105-113 | Once delivered, a result is never handed out again. Later fetches of its token return `None`, whatever `execute`, `close`, other fetches or the loop do in between. |
| Engine.PutBeforeRegisterCrashes | sqlite_worker/main.py:98-99 | With the source's order (put, then register), on an idle running worker and for a non-empty query, the loop pass that takes the request before it is registered kills the processing thread. |
| Engine.StoppedHasDrained | sqlite_worker/main.py:43-54 | A stopped loop has executed every submitted request in submission order, set its event and committed everything. |
| Engine.Drain | sqlite_worker/main.py:42-54 | On a closed worker the loop terminates, in the stopped phase, with the invariant intact. It has executed every submitted request in order after the init statements, set their events, left only sentinels queued and committed everything. |
| Engine.BootAndDrain | sqlite_worker/main.py:27-54 | A closed worker that has not started either dies at the first init statement that raises, having executed exactly the init statements up to it in order, after every earlier one returned rows and with nothing committed, or stops after every init statement returned rows. In the second case it has executed every submitted request in order after them, set their events, left only sentinels queued and committed everything. |
| Engine.Join | sqlite_worker/main.py:80-83 | `close` then `join`: a running or stopped worker always ends stopped. A worker that had not started ends dead exactly at the first init statement that raises: it executed the init statements up to that one in order, and every earlier one returned rows. Otherwise every init statement returned rows. A stopped thread leaves only sentinels queued, has executed every submitted request in order, has set every event, and has committed everything. |
| TaskQueue.ColumnsLayout | examples/task_queue/task_queue.py:54-71 | The columns of `SELECT *` in schema order: index 5 is the status, 7 `created_at`, 10 `completed_at` (never an integer), 11 `max_retries`, 12 `retry_count`. |
| TaskQueue.Enqueue | examples/task_queue/task_queue.py:90-134 | `enqueue` inserts one new row under a fresh id and returns that id. The row is pending with the priority's value, the given retry budget, no retries, payload `{}` when none was given, and no worker or times. No other row changes. |
| TaskQueue.EnqueueDefaults | examples/task_queue/task_queue.py:90-98 | By default a task gets priority NORMAL (2) and three retries. |
| TaskQueue.EnqueuePreservesInv | examples/task_queue/task_queue.py:90-124 | `enqueue` preserves the table invariant: ids below the AUTOINCREMENT counter, retries within budget. |
| TaskQueue.NextDueIsUnique | examples/task_queue/task_queue.py:146-153 | At most one row is "next" under `ORDER BY priority DESC, created_at ASC` with ties broken by id. |
| TaskQueue.Dequeue | examples/task_queue/task_queue.py:136-181 | `dequeue` returns `None`, changing nothing, exactly when no pending task is due. Otherwise it claims the due pending task that is highest in priority and then oldest: it marks the task running for this worker from now on, returns its fields, and leaves every other row alone. It preserves the table invariant. |
| TaskQueue.CompleteTask | examples/task_queue/task_queue.py:183-194 | `complete_task` sets completed, the completion time and the result (`{}` when none) on the row, if the row exists, and on no other row. The row's other columns are unchanged. |
| TaskQueue.FailTask | examples/task_queue/task_queue.py:196-234 | The intended retry rule. With retries left, the task goes back to pending with one more retry counted and its worker and start time cleared. Otherwise it is failed with a completion time. Both record the error. Every other column of the row, and every other row, is unchanged. An unknown id changes nothing. |
| TaskQueue.FailTaskPreservesInv | examples/task_queue/task_queue.py:206-221 | Under the intended rule, `retry_count` never exceeds `max_retries` once a retry is counted. |
| TaskQueue.FailTaskAsWritten | examples/task_queue/task_queue.py:196-209 | `fail_task` as written: an unknown id changes nothing. |
| TaskQueue.FailTaskAsWrittenAlwaysRaises | examples/task_queue/task_queue.py:205-209 | As written, failing an existing task whose row `SELECT *` can read raises `TypeError`, because `task[10]` is `completed_at`, never an integer. These are the tasks whose `TIMESTAMP` columns are NULL or space-separated. |
| TaskQueue.FailTaskWitness | examples/task_queue/task_queue.py:205-222 | A freshly enqueued task that fails once: as written this raises, while the intended rule sends it back to pending with one retry counted. |
| TaskQueue.CancelTask | examples/task_queue/task_queue.py:236-249 | `cancel_task` returns `True` exactly when the task exists and is pending; only then is it cancelled, with nothing else changed. |
| TaskQueue.CompleteAndCancelPreserveInv | examples/task_queue/task_queue.py:183-249 | Completing and cancelling preserve the table invariant. |
| TaskQueue.QueueStats | examples/task_queue/task_queue.py:251-264 | `get_queue_stats` has an entry for every status and nothing else, and each entry counts the tasks in that status (0 when there are none). |
| TaskQueue.QueueStatsTotal | examples/task_queue/task_queue.py:251-264 | The five counts add up to the number of tasks. |
| TaskQueue.InsertNewestFirst | examples/task_queue/task_queue.py:271 | Inserting into a newest-first list keeps it newest-first and free of duplicate ids, and adds exactly the new entry. |
| TaskQueue.NewestPrefix | examples/task_queue/task_queue.py:271-272 | `LIMIT` on a newest-first list keeps the newest entries. |
| TaskQueue.TasksByStatus | examples/task_queue/task_queue.py:266-285 | `get_tasks_by_status` returns at most `limit` summaries, newest first, each summarising a distinct task in that status. All such tasks appear when fewer than `limit` are returned, and none left out is newer than one returned. |

## Left out

- Threads, the lock, `threading.Event.wait` and every timeout are not modelled.
  Each public call and each loop pass is an atomic step. A `fetch_results` that
  would wait returns `WouldBlock`, and a `put` that would time out on a full
  queue raises `QueueFull` at once.
- SQLite itself is the `Oracle` parameter. The model does not cover SQL
  semantics, `PARSE_DECLTYPES` conversion, `fetchall` rows for non-select
  statements, or `last_insert_rowid` as seen by concurrent callers.
- Only errors the connection reports (`sqlite3.Error`) are stored as results.
  Any other exception from `cursor.execute` is not modelled.
- Engine.New: the source starts the thread before it assigns `execute_init` and
  `max_count` (main.py:22-25). The model assumes the thread reads them only
  after they are assigned.
- Engine.Execute: it is modelled as one atomic step. The interleaving inside it
  is the separate finding below. An `execute` that passes the closed check
  while `close` runs is not modelled, so nothing is queued after the loop has
  exited.
- The empty query `""` is queued and registered, but the loop skips it without
  setting its event. A fetch of its token would wait forever. The model keeps
  this behaviour: `Fetch` returns `WouldBlock` for it.
- Text.LowerChar: only ASCII letters are lowered. No other character lowers to
  a letter of "select", so the classifier stays exact. `Text.Lower` is not a
  full model of `str.lower`.
- Tokens: `uuid4().hex` is replaced by the hex spelling of a counter. A random
  32-digit token has no uniqueness guarantee; the model's tokens do.
- The `insert`, `update` and `select` helpers that the task queue calls are not
  defined in `sqlite_worker/main.py`. Each task-queue operation is modelled by
  its effect on the table, and the round trips through the worker are not
  modelled.
- TaskQueue: timestamps are integers. The source compares `scheduled_at`
  (ISO text with `T`) against `datetime.now().isoformat()` as strings, and
  `created_at` is filled by SQLite's `CURRENT_TIMESTAMP` (UTC, with a space
  separator). Those string orderings are not modelled. `dequeue` reads the
  clock twice; the model uses one instant.
- TaskQueue.Dequeue: SQL leaves the order of ties on `(priority, created_at)`
  open; the model breaks them by id. The select and the update are not
  atomic, so two consumers could claim the same task; the model runs each
  `dequeue` as one step.
- TaskQueue: payloads and results are JSON text and are not decoded.
  `json.loads` of the payload is not modelled.
- TaskQueue: the connection uses `PARSE_DECLTYPES` (main.py:36), so reading a
  `TIMESTAMP` column converts its text. The task queue writes those columns with
  `isoformat()`, which separates date and time with `T` (task_queue.py:122, 169,
  189, 229), and the conversion of such text raises `ValueError`. That is not an
  `sqlite3.Error`, so the `SELECT *` reads in `cancel_task`, `fail_task` and
  `get_tasks_by_status` kill the processing thread for any row with a scheduled,
  start or completion time, and the caller then waits forever. The model reads
  every row successfully. `dequeue` is unaffected: it selects no `TIMESTAMP`
  column.
- TaskQueue.TasksByStatus: `limit` is a plain parameter. `DefaultLimit` (10) names the
  source's default, but no lemma is stated for that value alone.
- Logging, the `print` calls, `close` of the task queue (it only calls
  `SqliteWorker.close`) and the schema's index statements are not modelled.
  The indexes only affect speed.

## Findings

| source | as written | input that shows it | evidently intended | confidence | as-written member | corrected member |
|---|---|---|---|---|---|---|
| sqlite_worker/main.py:98-99 | `execute` puts the request on the queue, then registers the token's event | An idle running worker: the loop takes the request between the `put` and `setdefault`, and `_select_events[token]` raises `KeyError`, which kills the processing thread | Register the event before putting the request | not executed | Engine.PutBeforeRegisterCrashes | Engine.PutPreservesInv |
| examples/task_queue/task_queue.py:206-207 | `retry_count = task[11]`, `max_retries = task[10]` | Any existing task whose `TIMESTAMP` columns are NULL or space-separated, e.g. one freshly enqueued with three retries and no schedule: `task[10]` is `completed_at` (None), so `3 < None` raises `TypeError` | `retry_count = task[12]`, `max_retries = task[11]` | not executed | TaskQueue.FailTaskAsWrittenAlwaysRaises | TaskQueue.FailTaskPreservesInv |

=== FILE: engine.dfy ===
/**
  The single-writer request engine of `sqlite_worker/main.py` as a sequential
  state machine. Each public call (`execute`, `fetch_results`, `close`,
  `queue_size`) and each iteration of the loop in `_process_queries` is one
  atomic step on an immutable `Worker` record; the threads of the source only
  decide the order in which these steps happen.
*/
module Engine {
  import opened Wrappers
  import opened Sql
  import opened Text
  import opened Tokens

  /** A queue entry: a request `(token, query, values)`, or the `(None, None, None)` sentinel of `close`. */
  datatype Entry = Request(token: Token, query: string, values: seq<SqlValue>) | Sentinel

  /** `if query:` in the loop: only a request with a non-empty query is executed and counted. */
  predicate Runs(e: Entry) {
    e.Request? && e.query != ""
  }

  /** The token of a request. Tokens of distinct requests are compared only through it. */
  function TokenOf(e: Entry): Token
    requires e.Request?
  {
    e.token
  }

  function StmtOf(e: Entry): Stmt
    requires e.Request?
  {
    Stmt(e.query, e.values)
  }

  /** The statements that a sequence of dequeued entries hands to the connection, in dequeue order. */
  function Executed(es: seq<Entry>): seq<Stmt> {
    if es == [] then []
    else
      var last := es[|es| - 1];
      Executed(es[..|es| - 1]) + (if Runs(last) then [StmtOf(last)] else [])
  }

  /** The `execute_init` statements, each run without parameters. */
  function InitStmts(init: seq<string>): (r: seq<Stmt>)
    ensures |r| == |init|
  {
    if init == [] then [] else [Stmt(init[0], [])] + InitStmts(init[1..])
  }

  /** Where the processing thread is: before the init statements, in the loop, past the loop, or dead. */
  datatype Phase = Starting | Running | Stopped | Crashed

  /** The exceptions `execute` and `close` raise: `RuntimeError("Worker is closed")` and `queue.Full`. */
  datatype EngineError = WorkerClosed | QueueFull

  /** What `fetch_results` does: return `None`, wait on the token's event, or return the stored value. */
  datatype Fetched = NoResult | WouldBlock | Got(outcome: Outcome)

  /**
    The worker. `events` maps each registered token to whether its event is set;
    `submitted` is every entry ever put on the queue, `log` every statement handed
    to the connection and `committed` how many of those the last commit covered.
    These three are bookkeeping of the model: the source keeps no such history.
  */
  datatype Worker = Worker(
    phase: Phase,
    init: seq<string>,
    capacity: int,
    maxCount: int,
    queue: seq<Entry>,
    results: map<Token, Outcome>,
    events: map<Token, bool>,
    closed: bool,
    count: nat,
    nextId: nat,
    submitted: seq<Entry>,
    log: seq<Stmt>,
    committed: nat)
  {
    /** `queue.Queue(maxsize)` is unbounded when `maxsize <= 0`. */
    predicate Full() {
      capacity > 0 && |queue| >= capacity
    }

    /** The entries already taken off the queue by the loop. */
    function Dequeued(): seq<Entry>
      requires |queue| <= |submitted|
    {
      submitted[..|submitted| - |queue|]
    }

    /** How many entries the loop has taken off the queue. */
    function Taken(): int {
      |submitted| - |queue|
    }

    function Uncommitted(): int {
      |log| - committed
    }
  }

  // ---------------------------------------------------------------------------
  // Invariants of every reachable worker
  // ---------------------------------------------------------------------------

  /** The queue is the not-yet-taken suffix of everything submitted, within capacity. */
  ghost predicate QueueInv(s: Worker) {
    && |s.queue| <= |s.submitted|
    && s.queue == s.submitted[|s.submitted| - |s.queue|..]
    && (s.capacity > 0 ==> |s.queue| <= s.capacity)
  }

  /**
    Init statements first, then exactly the runnable taken requests, in queue
    order. A stopped loop was closed and left nothing but sentinels behind.
  */
  ghost predicate LogInv(s: Worker)
    requires QueueInv(s)
  {
    match s.phase
    case Starting => s.log == [] && s.queue == s.submitted && s.count == 0 && s.committed == 0
    case Running => s.log == InitStmts(s.init) + Executed(s.Dequeued())
    case Stopped =>
      && s.log == InitStmts(s.init) + Executed(s.Dequeued()) && s.closed
      && forall i :: s.Taken() <= i < |s.submitted| ==> s.submitted[i] == Sentinel
    case Crashed => true
  }

  /** `count` is the number of uncommitted statements, below `max_count` between iterations. */
  ghost predicate CommitInv(s: Worker) {
    (s.phase == Running || s.phase == Stopped) ==>
      && s.committed <= |s.log|
      && s.count == |s.log| - s.committed
      && (s.count < s.maxCount || s.count == 0)
      && (s.queue == [] ==> s.count == 0)
      && (s.phase == Stopped ==> s.count == 0)
  }

  /**
    Registered tokens were minted, submitted requests carry pairwise distinct
    tokens, and stored results belong to set events.
  */
  ghost predicate RegistryInv(s: Worker) {
    && (forall t :: t in s.events ==> MintedBelow(t, s.nextId))
    && (forall i, j {:trigger TokenOf(s.submitted[i]), TokenOf(s.submitted[j])} ::
          0 <= i < j < |s.submitted| && s.submitted[i].Request? && s.submitted[j].Request? ==>
          TokenOf(s.submitted[i]) != TokenOf(s.submitted[j]))
    && (forall t :: t in s.results ==> t in s.events && s.events[t])
  }

  /**
    Every submitted request is registered, and its event is set exactly when
    the loop has taken it and executed it.
  */
  ghost predicate SignalInv(s: Worker) {
    forall i :: 0 <= i < |s.submitted| && s.submitted[i].Request? ==>
      && s.submitted[i].token in s.events
      && (s.events[s.submitted[i].token] <==> i < s.Taken() && Runs(s.submitted[i]))
  }

  ghost predicate Inv(s: Worker) {
    && QueueInv(s)
    && LogInv(s)
    && CommitInv(s)
    && RegistryInv(s)
    && SignalInv(s)
  }

  // ---------------------------------------------------------------------------
  // Construction and start-up
  // ---------------------------------------------------------------------------

  /**
    `SqliteWorker(file_name, max_queue_size, execute_init, max_count)`, with the
    attributes in place before the processing thread reads them.
  */
  function New(capacity: int, init: seq<string>, maxCount: int): (w: Worker)
    ensures Inv(w)
    ensures w.phase == Starting && w.queue == [] && !w.closed
    ensures w.results == map[] && w.events == map[]
    ensures w.capacity == capacity && w.init == init && w.maxCount == maxCount
  {
    Worker(Starting, init, capacity, maxCount, [], map[], map[], false, 0, 0, [], [], 0)
  }

  /** The constructor's defaults: `max_queue_size=100`, `execute_init=()`, `max_count=50`. */
  const DefaultCapacity: int := 100
  const DefaultMaxCount: int := 50

  /** `SqliteWorker(file_name)` with every default: a bounded queue of 100, no init statements, batches of 50. */
  lemma NewDefaults()
    ensures
      var w := New(DefaultCapacity, [], DefaultMaxCount);
      && Inv(w) && w.capacity == 100 && w.maxCount == 50 && w.init == [] && !w.Full()
  {
  }

  /** Every statement of `xs` at an index in `[lo, hi)` returned rows when run after the ones before it. */
  ghost predicate AllSucceed(oracle: Oracle, xs: seq<Stmt>, lo: int, hi: int) {
    forall i :: lo <= i < hi && 0 <= i < |xs| ==> oracle(xs[..i], xs[i]).Rows?
  }

  lemma AllSucceedCons(oracle: Oracle, xs: seq<Stmt>, lo: nat, hi: int)
    requires lo < |xs| && oracle(xs[..lo], xs[lo]).Rows? && AllSucceed(oracle, xs, lo + 1, hi)
    ensures AllSucceed(oracle, xs, lo, hi)
  {
  }

  /** Extending a log after its end does not change how its first statements fared. */
  lemma AllSucceedPrefix(oracle: Oracle, xs: seq<Stmt>, ys: seq<Stmt>, n: int)
    requires n <= |xs| <= |ys| && ys[..|xs|] == xs && AllSucceed(oracle, xs, 0, n)
    ensures AllSucceed(oracle, ys, 0, n)
  {
    forall i | 0 <= i < n && 0 <= i < |ys| ensures oracle(ys[..i], ys[i]).Rows? {
      assert ys[..i] == xs[..i] && ys[i] == xs[i] by {
        assert ys[..|xs|][..i] == ys[..i];
      }
    }
  }

  /**
    Running `init` after `log` stopped with `out`: it ran a non-empty prefix of
    `init`, and the last statement of that prefix raised.
  */
  ghost predicate StoppedAt(oracle: Oracle, init: seq<string>, log: seq<Stmt>, out: seq<Stmt>) {
    && |log| < |out| <= |log| + |init|
    && out == log + InitStmts(init)[..|out| - |log|]
    && oracle(out[..|out| - 1], out[|out| - 1]).Error?
  }

  lemma StoppedAtFirst(oracle: Oracle, init: seq<string>, log: seq<Stmt>)
    requires init != [] && oracle(log, Stmt(init[0], [])).Error?
    ensures StoppedAt(oracle, init, log, log + [Stmt(init[0], [])])
  {
    assert InitStmts(init)[..1] == [Stmt(init[0], [])];
    assert (log + [Stmt(init[0], [])])[..|log|] == log;
  }

  lemma StoppedAtLater(oracle: Oracle, init: seq<string>, log: seq<Stmt>, out: seq<Stmt>)
    requires init != [] && StoppedAt(oracle, init[1..], log + [Stmt(init[0], [])], out)
    ensures StoppedAt(oracle, init, log, out)
  {
    var st, tail := Stmt(init[0], []), InitStmts(init[1..]);
    assert InitStmts(init) == [st] + tail;
    ConsPrefix(log, st, tail, |out| - |log|);
  }

  lemma ConsPrefix(log: seq<Stmt>, st: Stmt, tail: seq<Stmt>, k: nat)
    requires 1 <= k <= |tail| + 1
    ensures (log + [st]) + tail[..k - 1] == log + ([st] + tail)[..k]
  {
    assert ([st] + tail)[..k] == [st] + tail[..k - 1];
  }

  /**
    The `execute_init` loop: runs `init` in order after `log`, stopping at the
    first statement that raises. The flag says whether all of them succeeded.
  */
  function RunInit(init: seq<string>, oracle: Oracle, log: seq<Stmt>): (r: (seq<Stmt>, bool))
    ensures r.1 ==> r.0 == log + InitStmts(init)
    ensures !r.1 ==> StoppedAt(oracle, init, log, r.0)
    // it stops at the first statement that raises: every one run before it returned rows
    ensures AllSucceed(oracle, r.0, |log|, |r.0| - (if r.1 then 0 else 1))
    decreases |init|
  {
    if init == [] then (log, true)
    else
      var st := Stmt(init[0], []);
      if oracle(log, st).Error? then
        StoppedAtFirst(oracle, init, log);
        (log + [st], false)
      else
        var r := RunInit(init[1..], oracle, log + [st]);
        RunInitStep(oracle, init, log, r.0, r.1);
        r
  }

  /** What `RunInit(init[1..], oracle, log + [init[0]])` promises carries over to `RunInit(init, oracle, log)` once `init[0]` returned rows. */
  lemma RunInitStep(oracle: Oracle, init: seq<string>, log: seq<Stmt>, out: seq<Stmt>, ok: bool)
    requires init != [] && oracle(log, Stmt(init[0], [])).Rows?
    requires ok ==> out == log + [Stmt(init[0], [])] + InitStmts(init[1..])
    requires !ok ==> StoppedAt(oracle, init[1..], log + [Stmt(init[0], [])], out)
    requires AllSucceed(oracle, out, |log| + 1, |out| - (if ok then 0 else 1))
    ensures ok ==> out == log + InitStmts(init)
    ensures !ok ==> StoppedAt(oracle, init, log, out)
    ensures AllSucceed(oracle, out, |log|, |out| - (if ok then 0 else 1))
  {
    var st := Stmt(init[0], []);
    assert InitStmts(init) == [st] + InitStmts(init[1..]);
    if ok {
      PrefixOfConcat(log + [st], InitStmts(init[1..]));
    } else {
      StoppedAtLater(oracle, init, log, out);
      PrefixOfConcat(log + [st], InitStmts(init[1..])[..|out| - |log| - 1]);
    }
    FirstSucceeds(oracle, log, st, out, |out| - (if ok then 0 else 1));
  }

  lemma PrefixOfConcat<T>(a: seq<T>, c: seq<T>)
    ensures (a + c)[..|a|] == a
  {
    assert forall i :: 0 <= i < |a| ==> (a + c)[..|a|][i] == a[i];
  }

  /** A log that starts with `log + [st]`, where `st` returned rows after `log`, succeeds from `|log|` on if it does from `|log| + 1` on. */
  lemma FirstSucceeds(oracle: Oracle, log: seq<Stmt>, st: Stmt, xs: seq<Stmt>, hi: int)
    requires |log| < |xs| && xs[..|log| + 1] == log + [st]
    requires oracle(log, st).Rows? && AllSucceed(oracle, xs, |log| + 1, hi)
    ensures AllSucceed(oracle, xs, |log|, hi)
  {
    assert xs[..|log|] == xs[..|log| + 1][..|log|] == log;
    assert xs[|log|] == xs[..|log| + 1][|log|] == st;
    AllSucceedCons(oracle, xs, |log|, hi);
  }

  /** Each init statement is run as written, with no parameters, in order. */
  lemma {:induction false} InitStmtsAt(init: seq<string>)
    ensures forall i :: 0 <= i < |init| ==> InitStmts(init)[i] == Stmt(init[i], [])
    decreases |init|
  {
    if init != [] {
      InitStmtsAt(init[1..]);
      assert forall i :: 1 <= i < |init| ==> init[1..][i - 1] == init[i];
    }
  }

  /**
    The start of `_process_queries`: run every init statement and commit. A
    statement error there escapes `_run`, so the thread dies with nothing committed.
  */
  function Boot(s: Worker, oracle: Oracle): (r: Worker)
    requires s.phase == Starting
    ensures r.queue == s.queue && r.submitted == s.submitted && r.events == s.events
    ensures r.init == s.init && r.closed == s.closed && r.results == s.results && r.nextId == s.nextId
    ensures r.capacity == s.capacity && r.maxCount == s.maxCount
    ensures r.phase == Running || r.phase == Crashed
    ensures r.phase == Running ==> r.log == s.log + InitStmts(s.init) && r.committed == |r.log| && r.count == 0
    ensures r.phase == Crashed ==>
      && |s.log| < |r.log| <= |s.log| + |s.init| && r.committed == s.committed
      && oracle(r.log[..|r.log| - 1], r.log[|r.log| - 1]).Error?
    // what ran before the crash is a prefix of the init statements, in order
    ensures r.phase == Crashed ==> StoppedAt(oracle, s.init, s.log, r.log)
    ensures AllSucceed(oracle, r.log, |s.log|, |r.log| - (if r.phase == Running then 0 else 1))
  {
    var run := RunInit(s.init, oracle, s.log);
    if run.1 then s.(phase := Running, log := run.0, committed := |run.0|, count := 0)
    else s.(phase := Crashed, log := run.0)
  }

  lemma BootPreservesInv(s: Worker, oracle: Oracle)
    requires Inv(s) && s.phase == Starting
    ensures Inv(Boot(s, oracle))
  {
    var r := Boot(s, oracle);
    var run := RunInit(s.init, oracle, s.log);
    if run.1 {
      assert r == s.(phase := Running, log := run.0, committed := |run.0|, count := 0);
    } else {
      assert r == s.(phase := Crashed, log := run.0);
    }
    assert QueueInv(r) && RegistryInv(r);
    if r.phase == Running {
      assert r.Dequeued() == [];
      assert r.log == InitStmts(r.init) + Executed(r.Dequeued());
    }
  }

  // ---------------------------------------------------------------------------
  // Producer side: execute, close, queue_size
  // ---------------------------------------------------------------------------

  /** `self._sql_queue.put(entry, timeout=5)`: `queue.Full` when no room appears in time. */
  function PutRequest(s: Worker, e: Entry): (r: Result<Worker, EngineError>)
    ensures r.Failure? <==> s.Full()
    ensures r.Failure? ==> r.error == QueueFull
    ensures r.Success? ==> r.value.queue == s.queue + [e] && r.value.submitted == s.submitted + [e]
    ensures r.Success? ==> r.value.events == s.events && r.value.results == s.results && r.value.log == s.log
    ensures r.Success? ==>
      && r.value.phase == s.phase && r.value.closed == s.closed && r.value.count == s.count
      && r.value.committed == s.committed && r.value.nextId == s.nextId
      && r.value.init == s.init && r.value.capacity == s.capacity && r.value.maxCount == s.maxCount
  {
    if s.Full() then Failure(QueueFull)
    else Success(s.(queue := s.queue + [e], submitted := s.submitted + [e]))
  }

  /** `_notify_query_begin`: `setdefault` an unset event for the token. */
  function RegisterToken(s: Worker, t: Token): (r: Worker)
    ensures t in r.events && r.events.Keys == s.events.Keys + {t}
    ensures forall u :: u in s.events ==> r.events[u] == s.events[u]
    // a new event starts unset, and nothing but the events changes
    ensures t !in s.events ==> !r.events[t]
    ensures r.(events := s.events) == s
  {
    if t in s.events then s else s.(events := s.events[t := false])
  }

  /** Whether `execute` hands the token back: `always_return_token or _is_select_query(query)`. */
  predicate ReturnsToken(query: string, alwaysReturnToken: bool) {
    alwaysReturnToken || IsSelectQuery(query)
  }

  /** The token `execute` mints on `s`: silent exactly when it is not handed back. */
  function IssuedToken(s: Worker, query: string, alwaysReturnToken: bool): Token {
    MintToken(s.nextId, !ReturnsToken(query, alwaysReturnToken))
  }

  /**
    The first half of `execute` on an open worker: mint the token and put the
    request on the queue. The token is not registered yet.
  */
  function PutHalf(s: Worker, query: string, values: seq<SqlValue>, alwaysReturnToken: bool): (r: Result<Worker, EngineError>)
    ensures r.Failure? <==> s.Full()
    ensures r.Success? ==>
      && r.value.queue == s.queue + [Request(IssuedToken(s, query, alwaysReturnToken), query, values)]
      && r.value.events == s.events && r.value.phase == s.phase && r.value.nextId == s.nextId + 1
    // the request is also recorded as submitted, and nothing else changes
    ensures r.Success? ==>
      && r.value.submitted == s.submitted + [Request(IssuedToken(s, query, alwaysReturnToken), query, values)]
      && r.value.(queue := s.queue, submitted := s.submitted, nextId := s.nextId) == s
  {
    PutRequest(s.(nextId := s.nextId + 1), Request(IssuedToken(s, query, alwaysReturnToken), query, values))
  }

  /**
    `execute(query, values, always_return_token)`: refuse on a closed worker,
    mint a token, queue the request and register the token. `values` stands
    for `values or []`.
  */
  function Execute(s: Worker, query: string, values: seq<SqlValue>, alwaysReturnToken: bool)
    : (r: (Worker, Result<Option<Token>, EngineError>))
    ensures s.closed ==> r == (s, Failure(WorkerClosed))
    ensures !s.closed && s.Full() ==> r == (s, Failure(QueueFull))
    ensures !s.closed && !s.Full() ==> r.1.Success?
    ensures r.1.Success? ==>
      var t := IssuedToken(s, query, alwaysReturnToken);
      && r.1.value == (if ReturnsToken(query, alwaysReturnToken) then Some(t) else None)
      && r.0.queue == s.queue + [Request(t, query, values)]
      && r.0.submitted == s.submitted + [Request(t, query, values)]
      && r.0.events.Keys == s.events.Keys + {t}
      && (t !in s.events ==> r.0.events == s.events[t := false])
      && r.0.results == s.results && r.0.log == s.log && r.0.phase == s.phase
      && (t in s.events ==> r.0.events == s.events)
    // besides queueing and registering, only the token counter advances
    ensures r.1.Success? ==>
      && r.0.nextId == s.nextId + 1
      && r.0.(queue := s.queue, submitted := s.submitted, events := s.events, nextId := s.nextId) == s
  {
    if s.closed then (s, Failure(WorkerClosed))
    else
      var token := IssuedToken(s, query, alwaysReturnToken);
      match PutHalf(s, query, values, alwaysReturnToken)
      case Failure(err) => (s, Failure(err))
      case Success(s1) =>
        (RegisterToken(s1, token), Success(if ReturnsToken(query, alwaysReturnToken) then Some(token) else None))
  }

  /** `execute`'s default for `always_return_token`. */
  const DefaultAlwaysReturnToken: bool := false

  /** `execute(query, values)` with the default flag on an open worker with room: only a select hands back a token. */
  lemma ExecuteDefaultFlag(s: Worker, query: string, values: seq<SqlValue>)
    requires !s.closed && !s.Full()
    ensures Execute(s, query, values, DefaultAlwaysReturnToken).1.Success?
    ensures Execute(s, query, values, DefaultAlwaysReturnToken).1.value.Some? <==> IsSelectQuery(query)
  {
  }

  /**
    The token rules of `execute`: the internal token ends with "-silent" exactly
    when the caller does not get it back, and it was never issued before.
  */
  lemma IssuedTokenRules(s: Worker, query: string, alwaysReturnToken: bool)
    requires RegistryInv(s)
    ensures EndsWith(IssuedToken(s, query, alwaysReturnToken), SilentSuffix) <==> !ReturnsToken(query, alwaysReturnToken)
    ensures IssuedToken(s, query, alwaysReturnToken) !in s.events
  {
    MintTokenSilentIff(s.nextId, !ReturnsToken(query, alwaysReturnToken));
    MintTokenFresh(s.nextId, !ReturnsToken(query, alwaysReturnToken));
  }

  /**
    `close`: set the closed flag, then queue the sentinel. The flag stays set
    even when the put times out on a full queue. Waiting for the thread is `Join`.
  */
  function Close(s: Worker): (r: (Worker, Result<(), EngineError>))
    ensures r.0.closed
    ensures r.0.submitted == s.submitted + (if s.Full() then [] else [Sentinel])
    ensures r.0.queue == s.queue + (if s.Full() then [] else [Sentinel])
    ensures r.1.Failure? <==> s.Full()
    ensures r.0.events == s.events && r.0.results == s.results && r.0.log == s.log && r.0.phase == s.phase
    ensures r.0.(closed := s.closed, queue := s.queue, submitted := s.submitted) == s
  {
    var s1 := s.(closed := true);
    match PutRequest(s1, Sentinel)
    case Failure(err) => (s1, Failure(err))
    case Success(s2) => (s2, Success(()))
  }

  /** `queue_size`: the current queue depth. */
  function QueueSize(s: Worker): (n: nat)
    ensures n == |s.queue|
    ensures Inv(s) && s.capacity > 0 ==> n <= s.capacity
  {
    |s.queue|
  }

  // ---------------------------------------------------------------------------
  // Consumer side: one iteration of the loop in `_process_queries`
  // ---------------------------------------------------------------------------

  /** `_execute_query` / `_handle_query_error`: what the outcome leaves in `_results`. */
  function StoreOutcome(results: map<Token, Outcome>, t: Token, out: Outcome): (r: map<Token, Outcome>)
    ensures out.Error? || !EndsWith(t, SilentSuffix) ==> t in r && r[t] == out
    ensures out.Rows? && EndsWith(t, SilentSuffix) ==> r == results
    ensures forall u :: u != t ==> (u in r <==> u in results)
    ensures forall u :: u != t && u in r ==> r[u] == results[u]
  {
    match out
    case Rows(_) => if EndsWith(t, SilentSuffix) then results else results[t := out]
    case Error(_) => results[t := out]
  }

  /**
    `_execute_query`: run the statement, store its rows (unless silent) or its
    error, then `_notify_query_done`. Indexing `_select_events` with an
    unregistered token raises `KeyError`, which no handler catches: the thread dies.
  */
  function RunRequest(s: Worker, e: Entry, oracle: Oracle): (r: Worker)
    requires e.Request?
    ensures r.log == s.log + [StmtOf(e)]
    ensures r.results == StoreOutcome(s.results, e.token, oracle(s.log, StmtOf(e)))
    ensures e.token in s.events ==> r.phase == s.phase && r.events == s.events[e.token := true]
    ensures e.token !in s.events ==> r.phase == Crashed && r.events == s.events
    ensures r.queue == s.queue && r.submitted == s.submitted && r.count == s.count && r.committed == s.committed
    ensures r.(log := s.log, results := s.results, events := s.events, phase := s.phase) == s
  {
    var st := StmtOf(e);
    var s1 := s.(log := s.log + [st], results := StoreOutcome(s.results, e.token, oracle(s.log, st)));
    if e.token in s1.events then s1.(events := s1.events[e.token := true]) else s1.(phase := Crashed)
  }

  /**
    One pass of `while not closed or not queue.empty()`: exit when closed and
    drained, idle when the `get` times out, otherwise take the head entry, run it
    if it carries a query, and commit when the batch is full or the queue empty.
  */
  function Step(s: Worker, oracle: Oracle): (r: Worker)
    requires s.phase == Running
    ensures r.init == s.init && r.maxCount == s.maxCount && r.capacity == s.capacity && r.closed == s.closed
    ensures r.submitted == s.submitted && r.nextId == s.nextId
    // loop exit and idle wait
    ensures s.queue == [] && s.closed ==> r.phase == Stopped && r.committed == |r.log| && r.log == s.log
    ensures s.queue == [] && !s.closed ==> r == s
    ensures s.queue == [] ==> r.queue == [] && r.events == s.events && r.results == s.results
    ensures r.phase == Stopped ==> s.closed && s.queue == []
    // strict FIFO: the head entry, and only it, leaves the queue
    ensures s.queue != [] ==> r.queue == s.queue[1..]
    // the sentinel and empty queries are dequeued but neither executed nor counted
    ensures s.queue != [] && !Runs(s.queue[0]) ==>
      r.log == s.log && r.results == s.results && r.events == s.events && r.phase == Running
    // a request is executed once, its outcome stored by the silent rule, its token signalled
    ensures s.queue != [] && Runs(s.queue[0]) ==>
      var e := s.queue[0];
      var out := oracle(s.log, StmtOf(e));
      && r.log == s.log + [StmtOf(e)]
      && (out.Error? ==> r.results == s.results[e.token := out])
      && (out.Rows? && !EndsWith(e.token, SilentSuffix) ==> r.results == s.results[e.token := out])
      && (out.Rows? && EndsWith(e.token, SilentSuffix) ==> r.results == s.results)
      && (e.token in s.events ==> r.events == s.events[e.token := true] && r.phase == Running)
      && (e.token !in s.events ==> r.phase == Crashed)
    // commit batching: commit exactly when the batch is full or the queue is empty
    ensures s.queue != [] && r.phase == Running ==>
      var c := s.count + (if Runs(s.queue[0]) then 1 else 0);
      if c >= s.maxCount || r.queue == [] then r.count == 0 && r.committed == |r.log|
      else r.count == c && r.committed == s.committed
  {
    if s.queue == [] then
      if s.closed then s.(phase := Stopped, count := 0, committed := |s.log|) else s
    else
      var e := s.queue[0];
      var s1 := s.(queue := s.queue[1..]);
      var s2 := if Runs(e) then RunRequest(s1.(count := s1.count + 1), e, oracle) else s1;
      if s2.phase == Crashed then s2
      else if s2.count >= s2.maxCount || s2.queue == [] then s2.(count := 0, committed := |s2.log|)
      else s2
  }

  // ---------------------------------------------------------------------------
  // Caller side: fetch_results
  // ---------------------------------------------------------------------------

  /**
    `fetch_results(token)`: `None` for a missing or empty token and for one that
    was never registered; otherwise wait for its event and pop its stored value.
  */
  function Fetch(s: Worker, token: Option<Token>): (r: (Worker, Fetched))
    ensures r.0.events == s.events && r.0.queue == s.queue && r.0.log == s.log && r.0.phase == s.phase
    ensures token.None? || token.value == [] || token.value !in s.events ==> r == (s, NoResult)
    ensures r.1 == WouldBlock <==>
      token.Some? && token.value != [] && token.value in s.events && !s.events[token.value]
    ensures r.1.Got? <==>
      token.Some? && token.value != [] && token.value in s.events && s.events[token.value] && token.value in s.results
    ensures r.1.Got? ==>
      && r.1.outcome == s.results[token.value]
      && r.0.results == s.results - {token.value}
    ensures !r.1.Got? ==> r.0 == s
    // only a delivered result is removed; nothing else changes
    ensures r.0.(results := s.results) == s
  {
    if token.None? || token.value == [] then (s, NoResult)
    else
      var t := token.value;
      if t !in s.events then (s, NoResult)
      else if !s.events[t] then (s, WouldBlock)
      else if t in s.results then (s.(results := s.results - {t}), Got(s.results[t]))
      else (s, NoResult)
  }

  // ---------------------------------------------------------------------------
  // Every operation keeps the invariants
  // ---------------------------------------------------------------------------

  lemma ExecutedSnoc(es: seq<Entry>, e: Entry)
    ensures Executed(es + [e]) == Executed(es) + (if Runs(e) then [StmtOf(e)] else [])
  {
    assert (es + [e])[..|es|] == es;
  }

  /** Sentinels left behind add nothing to what is executed. */
  lemma {:induction false} ExecutedIgnoresSentinels(es: seq<Entry>, tail: seq<Entry>)
    requires forall i :: 0 <= i < |tail| ==> tail[i] == Sentinel
    ensures Executed(es + tail) == Executed(es)
    decreases |tail|
  {
    if tail != [] {
      var front := tail[..|tail| - 1];
      assert es + tail == (es + front) + [tail[|tail| - 1]];
      ExecutedSnoc(es + front, tail[|tail| - 1]);
      ExecutedIgnoresSentinels(es, front);
    } else {
      assert es + tail == es;
    }
  }

  /** A token registered but not yet submitted: the state between the two halves of a request. */
  ghost predicate Reserved(s: Worker, t: Token) {
    && t in s.events && !s.events[t]
    && forall i :: 0 <= i < |s.submitted| && s.submitted[i].Request? ==> s.submitted[i].token != t
  }

  /**
    Minting a token from the counter and registering it keeps the registry
    consistent and leaves the token reserved: registered, unset, not yet queued.
  */
  lemma MintAndRegister(s: Worker, silent: bool)
    requires RegistryInv(s) && SignalInv(s)
    ensures MintToken(s.nextId, silent) !in s.events
    ensures RegistryInv(RegisterToken(s.(nextId := s.nextId + 1), MintToken(s.nextId, silent)))
    ensures SignalInv(RegisterToken(s.(nextId := s.nextId + 1), MintToken(s.nextId, silent)))
    ensures Reserved(RegisterToken(s.(nextId := s.nextId + 1), MintToken(s.nextId, silent)), MintToken(s.nextId, silent))
  {
    var t := MintToken(s.nextId, silent);
    MintTokenFresh(s.nextId, silent);
    var r := RegisterToken(s.(nextId := s.nextId + 1), t);
    assert r.events == s.events[t := false] && r.nextId == s.nextId + 1;
    assert r.submitted == s.submitted && r.queue == s.queue && r.results == s.results;
    forall u | u in r.events ensures MintedBelow(u, r.nextId) {
      if u != t {
        MintedBelowGrows(u, s.nextId, r.nextId);
      }
    }
    forall i | 0 <= i < |r.submitted| && r.submitted[i].Request?
      ensures r.submitted[i].token != t && r.events[r.submitted[i].token] == s.events[s.submitted[i].token]
    {
      assert r.submitted[i].token in s.events;
    }
  }

  /** Queueing extends the suffix of entries still to be taken and leaves the taken ones alone. */
  lemma PutKeepsQueue(s: Worker, e: Entry)
    requires QueueInv(s) && !s.Full()
    ensures QueueInv(PutRequest(s, e).value)
    ensures PutRequest(s, e).value.Dequeued() == s.Dequeued()
    ensures PutRequest(s, e).value.Taken() == s.Taken()
  {
    var r := PutRequest(s, e).value;
    assert r.submitted[..|r.submitted| - |r.queue|] == s.submitted[..|s.submitted| - |s.queue|];
    assert r.queue == r.submitted[|r.submitted| - |r.queue|..];
  }

  /** Queueing a reserved token keeps the tokens of submitted requests distinct. */
  lemma PutRegistryInv(s: Worker, e: Entry)
    requires RegistryInv(s) && !s.Full()
    requires e.Request? ==> Reserved(s, e.token)
    ensures RegistryInv(PutRequest(s, e).value)
  {
    var r := PutRequest(s, e).value;
    assert r.events == s.events && r.results == s.results && r.nextId == s.nextId;
    assert r.submitted == s.submitted + [e];
    forall i, j | 0 <= i < j < |r.submitted| && r.submitted[i].Request? && r.submitted[j].Request?
      ensures TokenOf(r.submitted[i]) != TokenOf(r.submitted[j])
    {
      if j == |s.submitted| {
        assert r.submitted[i] == s.submitted[i];
      } else {
        assert r.submitted[i] == s.submitted[i] && r.submitted[j] == s.submitted[j];
        assert TokenOf(s.submitted[i]) != TokenOf(s.submitted[j]);
      }
    }
  }

  /** A queued request waits with its event unset. */
  lemma PutSignalInv(s: Worker, e: Entry)
    requires QueueInv(s) && SignalInv(s) && !s.Full()
    requires e.Request? ==> Reserved(s, e.token)
    ensures SignalInv(PutRequest(s, e).value)
  {
    var r := PutRequest(s, e).value;
    PutKeepsQueue(s, e);
    assert r.events == s.events && r.submitted == s.submitted + [e];
    forall i | 0 <= i < |r.submitted| && r.submitted[i].Request?
      ensures r.submitted[i].token in r.events
      ensures r.events[r.submitted[i].token] <==> i < r.Taken() && Runs(r.submitted[i])
    {
      if i < |s.submitted| {
        assert r.submitted[i] == s.submitted[i];
      }
    }
  }

  /** Queueing leaves the log alone; on a stopped loop only sentinels may be queued. */
  lemma PutLogInv(s: Worker, e: Entry)
    requires QueueInv(s) && LogInv(s) && !s.Full()
    requires s.phase == Stopped ==> e == Sentinel
    ensures LogInv(PutRequest(s, e).value)
  {
    var r := PutRequest(s, e).value;
    PutKeepsQueue(s, e);
    assert r.phase == s.phase && r.log == s.log && r.init == s.init && r.closed == s.closed;
    assert r.count == s.count && r.committed == s.committed && r.submitted == s.submitted + [e];
    if r.phase == Stopped {
      forall i | r.Taken() <= i < |r.submitted| ensures r.submitted[i] == Sentinel {
        if i < |s.submitted| {
          assert r.submitted[i] == s.submitted[i];
        }
      }
    }
  }

  /**
    Queueing keeps the invariants when the entry is the sentinel, or a request
    whose token is already reserved on a worker whose loop has not exited. This
    is the corrected order of `execute`: register first, queue at any later point.
  */
  lemma PutPreservesInv(s: Worker, e: Entry)
    requires Inv(s) && !s.Full()
    requires e.Request? ==> Reserved(s, e.token) && s.phase != Stopped
    ensures Inv(PutRequest(s, e).value)
  {
    var r := PutRequest(s, e).value;
    PutKeepsQueue(s, e);
    PutLogInv(s, e);
    PutRegistryInv(s, e);
    PutSignalInv(s, e);
    assert r.phase == s.phase && r.log == s.log && r.count == s.count && r.committed == s.committed;
  }

  /** Between reserving a token and queueing it, loop iterations leave it reserved. */
  lemma StepKeepsReserved(s: Worker, t: Token, oracle: Oracle)
    requires QueueInv(s) && s.phase == Running && Reserved(s, t)
    ensures Reserved(Step(s, oracle), t)
  {
    if s.queue != [] && Runs(s.queue[0]) {
      assert s.queue[0] == s.submitted[s.Taken()];
    }
  }

  /** Done atomically, putting then registering is registering then putting. */
  lemma ExecuteRegistersFirst(s: Worker, query: string, values: seq<SqlValue>, alwaysReturnToken: bool)
    requires !s.closed && !s.Full()
    ensures
      var t := IssuedToken(s, query, alwaysReturnToken);
      var s2 := RegisterToken(s.(nextId := s.nextId + 1), t);
      && !s2.Full()
      && Execute(s, query, values, alwaysReturnToken).0 == PutRequest(s2, Request(t, query, values)).value
  {
    var t := IssuedToken(s, query, alwaysReturnToken);
    var e := Request(t, query, values);
    var s1 := PutHalf(s, query, values, alwaysReturnToken).value;
    assert s1 == s.(nextId := s.nextId + 1, queue := s.queue + [e], submitted := s.submitted + [e]);
  }

  /**
    `execute`, performed atomically, keeps the invariants: it is the corrected
    order (mint, register, queue) run without interruption.
  */
  lemma ExecutePreservesInv(s: Worker, query: string, values: seq<SqlValue>, alwaysReturnToken: bool)
    requires Inv(s)
    ensures Inv(Execute(s, query, values, alwaysReturnToken).0)
  {
    if !s.closed && !s.Full() {
      var silent := !ReturnsToken(query, alwaysReturnToken);
      var t := IssuedToken(s, query, alwaysReturnToken);
      MintAndRegister(s, silent);
      var s2 := RegisterToken(s.(nextId := s.nextId + 1), t);
      var e := Request(t, query, values);
      var r := PutRequest(s2, e).value;
      ExecuteRegistersFirst(s, query, values, alwaysReturnToken);
      assert s2.queue == s.queue && s2.submitted == s.submitted && s2.capacity == s.capacity;
      assert s2.phase == s.phase && s2.log == s.log && s2.init == s.init;
      assert s2.count == s.count && s2.committed == s.committed && s2.maxCount == s.maxCount;
      assert QueueInv(s2) && LogInv(s2) && CommitInv(s2);
      PutPreservesInv(s2, e);
    }
  }

  lemma ClosePreservesInv(s: Worker)
    requires Inv(s)
    ensures Inv(Close(s).0)
  {
    var s1 := s.(closed := true);
    assert s1.queue == s.queue && s1.submitted == s.submitted && s1.events == s.events;
    assert QueueInv(s1) && CommitInv(s1) && RegistryInv(s1) && SignalInv(s1);
    assert LogInv(s1);
    if !s.Full() {
      PutPreservesInv(s1, Sentinel);
    }
  }

  /** Dropping stored results disturbs no invariant. */
  lemma DropResultsPreservesInv(s: Worker, results: map<Token, Outcome>)
    requires Inv(s) && results.Keys <= s.results.Keys
    ensures Inv(s.(results := results))
  {
    var r := s.(results := results);
    assert r.queue == s.queue && r.submitted == s.submitted && r.events == s.events && r.nextId == s.nextId;
    assert r.phase == s.phase && r.log == s.log && r.init == s.init && r.closed == s.closed;
    assert QueueInv(r) && LogInv(r) && CommitInv(r) && SignalInv(r);
    forall t | t in r.results ensures t in r.events && r.events[t] {
      assert t in s.results;
    }
  }

  lemma FetchPreservesInv(s: Worker, token: Option<Token>)
    requires Inv(s)
    ensures Inv(Fetch(s, token).0)
  {
    if Fetch(s, token).1.Got? {
      DropResultsPreservesInv(s, s.results - {token.value});
    }
  }

  /** One iteration that takes an entry takes the next submitted one. */
  lemma StepDequeues(s: Worker, oracle: Oracle)
    requires QueueInv(s) && s.phase == Running && s.queue != []
    ensures QueueInv(Step(s, oracle))
    ensures Step(s, oracle).Dequeued() == s.Dequeued() + [s.queue[0]]
    ensures Step(s, oracle).Taken() == s.Taken() + 1
    ensures s.queue[0] == s.submitted[s.Taken()]
  {
    var r := Step(s, oracle);
    var n := s.Taken();
    assert s.queue[0] == s.submitted[n];
    assert r.Dequeued() == s.submitted[..n + 1];
  }

  /** The head of a nonempty queue is registered and, when runnable, not yet signalled. */
  lemma HeadRegistered(s: Worker)
    requires QueueInv(s) && SignalInv(s) && s.queue != [] && s.queue[0].Request?
    ensures s.queue[0].token in s.events && !s.events[s.queue[0].token]
  {
    assert s.queue[0] == s.submitted[s.Taken()];
  }

  lemma StepLogInv(s: Worker, oracle: Oracle)
    requires QueueInv(s) && LogInv(s) && SignalInv(s) && s.phase == Running
    ensures QueueInv(Step(s, oracle)) && LogInv(Step(s, oracle))
    ensures Step(s, oracle).phase == Running || Step(s, oracle).phase == Stopped
  {
    var r := Step(s, oracle);
    if s.queue != [] {
      var e := s.queue[0];
      StepDequeues(s, oracle);
      ExecutedSnoc(s.Dequeued(), e);
      if e.Request? {
        HeadRegistered(s);
      }
      assert r.phase == Running;
      assert r.log == s.log + (if Runs(e) then [StmtOf(e)] else []);
    } else {
      assert r.log == s.log && r.queue == s.queue;
    }
  }

  lemma StepCommitInv(s: Worker, oracle: Oracle)
    requires QueueInv(s) && CommitInv(s) && SignalInv(s) && s.phase == Running
    ensures CommitInv(Step(s, oracle))
  {
    if s.queue != [] && s.queue[0].Request? {
      HeadRegistered(s);
    }
  }

  lemma StepRegistryInv(s: Worker, oracle: Oracle)
    requires QueueInv(s) && RegistryInv(s) && SignalInv(s) && s.phase == Running
    ensures RegistryInv(Step(s, oracle))
  {
    var r := Step(s, oracle);
    assert r.submitted == s.submitted && r.nextId == s.nextId;
    if s.queue != [] {
      var e := s.queue[0];
      if Runs(e) {
        HeadRegistered(s);
        assert r.events == s.events[e.token := true];
        assert r.events.Keys == s.events.Keys;
        assert r.results.Keys <= s.results.Keys + {e.token};
      } else {
        assert r.events == s.events && r.results == s.results;
      }
    }
  }

  /** After a pass the taken request is signalled exactly when it ran; no other event moves. */
  lemma StepSignalInv(s: Worker, oracle: Oracle)
    requires QueueInv(s) && RegistryInv(s) && SignalInv(s) && s.phase == Running
    ensures SignalInv(Step(s, oracle))
  {
    var r := Step(s, oracle);
    if s.queue != [] {
      StepDequeues(s, oracle);
      var e := s.queue[0];
      var n := s.Taken();
      if e.Request? {
        HeadRegistered(s);
      }
      forall i | 0 <= i < |r.submitted| && r.submitted[i].Request?
        ensures r.submitted[i].token in r.events
        ensures r.events[r.submitted[i].token] <==> i < r.Taken() && Runs(r.submitted[i])
      {
        if Runs(e) {
          assert r.events == s.events[e.token := true];
          if i != n {
            if i < n {
              assert TokenOf(s.submitted[i]) != TokenOf(s.submitted[n]);
            } else {
              assert TokenOf(s.submitted[n]) != TokenOf(s.submitted[i]);
            }
          }
        } else {
          assert r.events == s.events;
        }
      }
    } else {
      assert r.Taken() == s.Taken() && r.events == s.events;
    }
  }

  /**
    One loop iteration keeps the invariants, never kills the thread, and leaves
    fewer than `max_count` statements uncommitted.
  */
  lemma StepPreservesInv(s: Worker, oracle: Oracle)
    requires Inv(s) && s.phase == Running
    ensures Inv(Step(s, oracle))
    ensures Step(s, oracle).phase == Running || Step(s, oracle).phase == Stopped
    ensures Step(s, oracle).Uncommitted() < s.maxCount || Step(s, oracle).Uncommitted() == 0
  {
    StepLogInv(s, oracle);
    StepCommitInv(s, oracle);
    StepRegistryInv(s, oracle);
    StepSignalInv(s, oracle);
  }

  // ---------------------------------------------------------------------------
  // Single delivery
  // ---------------------------------------------------------------------------

  /** `t` has been executed, signalled and fetched: nothing is stored for it any more. */
  ghost predicate Delivered(s: Worker, t: Token) {
    t in s.events && s.events[t] && t !in s.results
  }

  /** A fetch that returns a value leaves its token delivered. */
  lemma FetchDelivers(s: Worker, t: Token)
    requires Fetch(s, Some(t)).1.Got?
    ensures Delivered(Fetch(s, Some(t)).0, t)
  {
  }

  /** The loop never touches a delivered token: the entry it takes carries an unset one. */
  lemma StepKeepsDelivered(s: Worker, t: Token, oracle: Oracle)
    requires QueueInv(s) && SignalInv(s) && s.phase == Running && Delivered(s, t)
    ensures Delivered(Step(s, oracle), t)
  {
    if s.queue != [] && s.queue[0].Request? {
      HeadRegistered(s);
    }
  }

  /**
    Once delivered, a token stays delivered whatever happens next, so every later
    fetch of it returns `None`: a result is handed out at most once.
  */
  lemma DeliveredIsFinal(s: Worker, t: Token, oracle: Oracle, query: string, values: seq<SqlValue>,
                         alwaysReturnToken: bool, other: Option<Token>)
    requires QueueInv(s) && SignalInv(s) && Delivered(s, t)
    ensures Fetch(s, Some(t)).1 == NoResult
    ensures s.phase == Running ==> Delivered(Step(s, oracle), t)
    ensures Delivered(Execute(s, query, values, alwaysReturnToken).0, t)
    ensures Delivered(Fetch(s, other).0, t)
    ensures Delivered(Close(s).0, t)
  {
    if s.phase == Running {
      StepKeepsDelivered(s, t, oracle);
    }
  }

  // ---------------------------------------------------------------------------
  // The put-before-register race
  // ---------------------------------------------------------------------------

  /**
    `execute` puts the request on the queue before registering its token. If the
    loop runs between the two, `_notify_query_done` finds no event and the
    `KeyError` kills the processing thread.
  */
  lemma PutBeforeRegisterCrashes(s: Worker, oracle: Oracle, query: string, values: seq<SqlValue>, alwaysReturnToken: bool)
    requires RegistryInv(s) && s.phase == Running && s.queue == [] && query != ""
    ensures PutHalf(s, query, values, alwaysReturnToken).Success?
    ensures Step(PutHalf(s, query, values, alwaysReturnToken).value, oracle).phase == Crashed
  {
    IssuedTokenRules(s, query, alwaysReturnToken);
  }

  // ---------------------------------------------------------------------------
  // close(): the join drains the queue
  // ---------------------------------------------------------------------------

  /** A stopped loop has executed, signalled and committed everything ever submitted. */
  lemma StoppedHasDrained(t: Worker)
    requires QueueInv(t) && LogInv(t) && CommitInv(t) && SignalInv(t) && t.phase == Stopped
    ensures t.log == InitStmts(t.init) + Executed(t.submitted)
    ensures t.committed == |t.log|
    ensures forall i :: 0 <= i < |t.queue| ==> t.queue[i] == Sentinel
    ensures forall i :: 0 <= i < |t.submitted| && Runs(t.submitted[i]) ==>
      t.submitted[i].token in t.events && t.events[t.submitted[i].token]
  {
    var d := t.Dequeued();
    assert t.submitted == d + t.queue;
    assert forall j :: 0 <= j < |t.queue| ==> t.queue[j] == t.submitted[|d| + j];
    ExecutedIgnoresSentinels(d, t.queue);
  }

  /**
    The loop of `_process_queries` run to its end on a closed worker: no new
    request can arrive, so every pass shortens the queue until the loop exits,
    having executed, signalled and committed everything ever submitted.
  */
  method Drain(s: Worker, oracle: Oracle) returns (t: Worker)
    requires Inv(s) && s.closed && (s.phase == Running || s.phase == Stopped)
    ensures Inv(t)
    ensures t.phase == Stopped && t.submitted == s.submitted
    ensures forall i :: 0 <= i < |t.queue| ==> t.queue[i] == Sentinel
    ensures t.log == InitStmts(s.init) + Executed(s.submitted)
    ensures t.committed == |t.log|
    ensures forall i :: 0 <= i < |s.submitted| && Runs(s.submitted[i]) ==>
      s.submitted[i].token in t.events && t.events[s.submitted[i].token]
  {
    t := s;
    while t.phase == Running
      invariant Inv(t) && t.closed && (t.phase == Running || t.phase == Stopped)
      invariant t.submitted == s.submitted && t.init == s.init
      decreases |t.queue| + (if t.phase == Running then 1 else 0)
    {
      StepPreservesInv(t, oracle);
      t := Step(t, oracle);
    }
    StoppedHasDrained(t);
  }

  /**
    `_run` from its start on a closed worker: boot, then loop until the loop
    condition fails. Start-up dies exactly at the first init statement that
    raises; otherwise the loop drains the queue.
  */
  method BootAndDrain(s: Worker, oracle: Oracle) returns (t: Worker)
    requires Inv(s) && s.closed && s.phase == Starting
    ensures t.submitted == s.submitted
    ensures t.phase == Stopped || t.phase == Crashed
    ensures t.phase == Crashed ==>
      && t.log != [] && |t.log| <= |s.init| && t.committed == 0
      && t.log == InitStmts(s.init)[..|t.log|]
      && oracle(t.log[..|t.log| - 1], t.log[|t.log| - 1]).Error?
      && AllSucceed(oracle, t.log, 0, |t.log| - 1)
    ensures t.phase == Stopped ==>
      && |s.init| <= |t.log|
      && AllSucceed(oracle, t.log, 0, |s.init|)
      && (forall i :: 0 <= i < |t.queue| ==> t.queue[i] == Sentinel)
      && t.log == InitStmts(s.init) + Executed(s.submitted)
      && t.committed == |t.log|
      && forall i :: 0 <= i < |s.submitted| && Runs(s.submitted[i]) ==>
           s.submitted[i].token in t.events && t.events[s.submitted[i].token]
  {
    assert s.log == [] && s.committed == 0;
    BootPreservesInv(s, oracle);
    var booted := Boot(s, oracle);
    if booted.phase == Crashed {
      return booted;
    }
    t := Drain(booted, oracle);
    // the init statements are a prefix of the final log
    assert booted.log == InitStmts(s.init);
    assert t.log[..|booted.log|] == booted.log;
    AllSucceedPrefix(oracle, booted.log, t.log, |s.init|);
  }

  /**
    `self._thread.join()` after `close`: the processing thread boots if it has not,
    then iterates until the loop condition fails. Unless an init statement fails,
    it stops with every submitted request executed in order and signalled, only
    sentinels left behind, and everything committed.
  */
  method Join(s: Worker, oracle: Oracle) returns (t: Worker)
    requires Inv(s) && s.closed
    ensures t.submitted == s.submitted
    ensures t.phase == Stopped || t.phase == Crashed
    ensures (s.phase == Running || s.phase == Stopped) ==> t.phase == Stopped
    ensures t.phase == Crashed ==> s.phase == Crashed || (s.phase == Starting && t.log != [] && t.committed == 0)
    // start-up dies exactly at the first init statement that raises
    ensures s.phase == Starting && t.phase == Crashed ==>
      && |t.log| <= |s.init|
      && t.log == InitStmts(s.init)[..|t.log|]
      && oracle(t.log[..|t.log| - 1], t.log[|t.log| - 1]).Error?
      && AllSucceed(oracle, t.log, 0, |t.log| - 1)
    ensures s.phase == Starting && t.phase == Stopped ==>
      && |s.init| <= |t.log|
      && AllSucceed(oracle, t.log, 0, |s.init|)
    ensures t.phase == Stopped ==>
      && (forall i :: 0 <= i < |t.queue| ==> t.queue[i] == Sentinel)
      && t.log == InitStmts(s.init) + Executed(s.submitted)
      && t.committed == |t.log|
      && forall i :: 0 <= i < |s.submitted| && Runs(s.submitted[i]) ==>
           s.submitted[i].token in t.events && t.events[s.submitted[i].token]
  {
    if s.phase == Crashed {
      t := s;
    } else if s.phase == Starting {
      t := BootAndDrain(s, oracle);
    } else {
      t := Drain(s, oracle);
    }
  }
}

=== FILE: sql.dfy ===
/**
  The vocabulary shared by the worker and its clients: bound parameter values,
  statements, and what the storage connection answers when a statement runs.
  The connection itself is not modelled; an `Oracle` stands for it.
*/
module Sql {

  /** A value bound to a statement parameter or read back in a row. */
  datatype SqlValue =
    | Null
    | Int(i: int)
    | Text(t: string)
      /** A timestamp; the source stores these as ISO-8601 text, the model as an integer instant. */
    | Stamp(at: int)

  type Row = seq<SqlValue>

  /** One statement as handed to `cursor.execute(query, values)`. */
  datatype Stmt = Stmt(query: string, values: seq<SqlValue>)

  /** What executing a statement yields: the fetched rows, or the `sqlite3.Error` it raised. */
  datatype Outcome = Rows(rows: seq<Row>) | Error(message: string)

  /**
    The storage connection, as an arbitrary function of everything executed so far
    and of the statement at hand. Every behaviour of the real engine is one such function.
  */
  type Oracle = (seq<Stmt>, Stmt) -> Outcome
}

=== FILE: taskqueue.dfy ===
/**
  The task lifecycle of `examples/task_queue/task_queue.py`, a client of the
  worker. The `tasks` table is a map from id to row; every method of `TaskQueue`
  becomes a function from table to table, with the SQL it issues replaced by
  its effect on that map. Timestamps are integers; `now` stands for `datetime.now()`.
*/
module TaskQueue {
  import opened Wrappers
  import opened Sql

  /** `TaskStatus`. */
  datatype TaskStatus = Pending | Running | Completed | Failed | Cancelled

  /** The enum's value, as stored in the `status` column. */
  function StatusText(st: TaskStatus): string {
    match st
    case Pending => "pending"
    case Running => "running"
    case Completed => "completed"
    case Failed => "failed"
    case Cancelled => "cancelled"
  }

  /** `TaskPriority`. */
  datatype Priority = Low | Normal | High | Critical

  /** The enum's value, as stored in the `priority` column. */
  function PriorityValue(p: Priority): int {
    match p
    case Low => 1
    case Normal => 2
    case High => 3
    case Critical => 4
  }

  /** The defaults of `enqueue`'s `priority` and `max_retries` parameters. */
  const DefaultPriority: Priority := Normal
  const DefaultMaxRetries: int := 3

  /** One row of `tasks`, its id aside (the id is the table's key). Fields in schema order. */
  datatype Task = Task(
    name: string,
    taskType: string,
    payload: string,
    priority: int,
    status: TaskStatus,
    workerId: Option<string>,
    createdAt: int,
    scheduledAt: Option<int>,
    startedAt: Option<int>,
    completedAt: Option<int>,
    maxRetries: int,
    retryCount: int,
    errorMessage: Option<string>,
    result: Option<string>)

  /** The `tasks` table; `nextId` is the next AUTOINCREMENT id. */
  datatype Table = Table(rows: map<nat, Task>, nextId: nat)

  function OptText(v: Option<string>): SqlValue {
    match v
    case None => Null
    case Some(s) => Text(s)
  }

  function OptStamp(v: Option<int>): SqlValue {
    match v
    case None => Null
    case Some(t) => Stamp(t)
  }

  /** The row as `SELECT *` returns it: the columns in the order of the `CREATE TABLE` statement. */
  function Columns(id: nat, t: Task): (r: Row)
    ensures |r| == 15
  {
    [ Int(id), Text(t.name), Text(t.taskType), Text(t.payload), Int(t.priority),
      Text(StatusText(t.status)), OptText(t.workerId), Stamp(t.createdAt), OptStamp(t.scheduledAt),
      OptStamp(t.startedAt), OptStamp(t.completedAt), Int(t.maxRetries), Int(t.retryCount),
      OptText(t.errorMessage), OptText(t.result) ]
  }

  /**
    Where the positional reads of the source land: index 5 is the status and 7
    the creation time, as `cancel_task` and `get_tasks_by_status` assume, but 10
    is `completed_at` and 11 is `max_retries`, not `max_retries` and `retry_count`.
  */
  lemma ColumnsLayout(id: nat, t: Task)
    ensures Columns(id, t)[5] == Text(StatusText(t.status))
    ensures Columns(id, t)[7] == Stamp(t.createdAt)
    ensures Columns(id, t)[10] == OptStamp(t.completedAt) && !Columns(id, t)[10].Int?
    ensures Columns(id, t)[11] == Int(t.maxRetries)
    ensures Columns(id, t)[12] == Int(t.retryCount)
  {
  }

  /** What every operation keeps: ids below the AUTOINCREMENT counter, retries within bounds. */
  ghost predicate TableInv(tb: Table) {
    && 1 <= tb.nextId
    && forall id :: id in tb.rows ==>
      && 1 <= id < tb.nextId
      && 0 <= tb.rows[id].retryCount
      && (tb.rows[id].retryCount <= tb.rows[id].maxRetries || tb.rows[id].retryCount == 0)
  }

  function EmptyTable(): (tb: Table)
    ensures TableInv(tb) && tb.rows == map[]
  {
    Table(map[], 1)
  }

  // ---------------------------------------------------------------------------
  // enqueue
  // ---------------------------------------------------------------------------

  /**
    `enqueue`: insert a pending row with the priority's value, the given retry
    budget, no retries yet, and `payload or {}` (as JSON text); return its id.
  */
  function Enqueue(tb: Table, name: string, taskType: string, payload: Option<string>,
                   priority: Priority, scheduledAt: Option<int>, maxRetries: int, now: int): (r: (Table, nat))
    ensures r.1 == tb.nextId && r.0.nextId == tb.nextId + 1
    ensures r.1 in r.0.rows && r.0.rows.Keys == tb.rows.Keys + {r.1}
    ensures TableInv(tb) ==> r.1 !in tb.rows
    ensures forall id :: id in tb.rows && id != r.1 ==> r.0.rows[id] == tb.rows[id]
    ensures
      var t := r.0.rows[r.1];
      && t.status == Pending && t.priority == PriorityValue(priority)
      && t.maxRetries == maxRetries && t.retryCount == 0
      && t.name == name && t.taskType == taskType && t.scheduledAt == scheduledAt && t.createdAt == now
      && t.payload == (if payload.Some? then payload.value else "{}")
      && t.workerId.None? && t.startedAt.None? && t.completedAt.None?
      && t.errorMessage.None? && t.result.None?
  {
    var id := tb.nextId;
    var t := Task(name, taskType, if payload.Some? then payload.value else "{}", PriorityValue(priority),
                  Pending, None, now, scheduledAt, None, None, maxRetries, 0, None, None);
    (Table(tb.rows[id := t], id + 1), id)
  }

  /** `enqueue(name, task_type)` with every default: priority NORMAL (2) and three retries. */
  lemma EnqueueDefaults(tb: Table, name: string, taskType: string, now: int)
    ensures
      var r := Enqueue(tb, name, taskType, None, DefaultPriority, None, DefaultMaxRetries, now);
      && r.0.rows[r.1].priority == 2 && r.0.rows[r.1].maxRetries == 3
      && r.0.rows[r.1].status == Pending && r.0.rows[r.1].retryCount == 0
  {
  }

  lemma EnqueuePreservesInv(tb: Table, name: string, taskType: string, payload: Option<string>,
                            priority: Priority, scheduledAt: Option<int>, maxRetries: int, now: int)
    requires TableInv(tb)
    ensures TableInv(Enqueue(tb, name, taskType, payload, priority, scheduledAt, maxRetries, now).0)
  {
  }

  // ---------------------------------------------------------------------------
  // dequeue
  // ---------------------------------------------------------------------------

  /** `status = 'pending' AND (scheduled_at IS NULL OR scheduled_at <= now)`. */
  predicate Due(t: Task, now: int) {
    t.status == Pending && (t.scheduledAt.None? || t.scheduledAt.value <= now)
  }

  /**
    `ORDER BY priority DESC, created_at ASC`: row `i` comes before row `j`. Ties
    on both keys are left to the database; the model breaks them by id.
  */
  predicate RanksBefore(i: nat, a: Task, j: nat, b: Task) {
    || a.priority > b.priority
    || (a.priority == b.priority && a.createdAt < b.createdAt)
    || (a.priority == b.priority && a.createdAt == b.createdAt && i < j)
  }

  lemma RanksBeforeTransitive(i: nat, a: Task, j: nat, b: Task, k: nat, c: Task)
    requires RanksBefore(i, a, j, b) && RanksBefore(j, b, k, c)
    ensures RanksBefore(i, a, k, c)
  {
  }

  lemma RanksBeforeTotal(i: nat, a: Task, j: nat, b: Task)
    requires i != j
    ensures RanksBefore(i, a, j, b) != RanksBefore(j, b, i, a)
  {
  }

  /** The row `LIMIT 1` picks: due, and ahead of every other due row. */
  ghost predicate IsNextDue(tb: Table, id: nat, now: int) {
    && id in tb.rows && Due(tb.rows[id], now)
    && forall j :: j in tb.rows && j != id && Due(tb.rows[j], now) ==> RanksBefore(id, tb.rows[id], j, tb.rows[j])
  }

  /** At most one row is next: the choice does not depend on how the rows are scanned. */
  lemma NextDueIsUnique(tb: Table, i: nat, j: nat, now: int)
    requires IsNextDue(tb, i, now) && IsNextDue(tb, j, now)
    ensures i == j
  {
    if i != j {
      RanksBeforeTotal(i, tb.rows[i], j, tb.rows[j]);
    }
  }

  /** Some element of a non-empty set of ids: the order in which the rows are visited. */
  method PickOne(ids: set<nat>) returns (k: nat)
    requires ids != {}
    ensures k in ids
  {
    k :| k in ids;
  }

  /** What `dequeue` hands to the worker. */
  datatype Claim = Claim(id: nat, name: string, taskType: string, payload: string, retryCount: int, maxRetries: int)

  /**
    `dequeue`: find the next due pending task; if there is one, mark it running
    for `workerId` from `now` on and return it, else return `None`.
  */
  method Dequeue(tb: Table, workerId: string, now: int) returns (r: Table, claim: Option<Claim>)
    ensures claim.None? <==> forall id :: id in tb.rows ==> !Due(tb.rows[id], now)
    ensures claim.None? ==> r == tb
    ensures claim.Some? ==> IsNextDue(tb, claim.value.id, now)
    ensures claim.Some? ==>
      var id := claim.value.id;
      var t := tb.rows[id];
      && claim.value == Claim(id, t.name, t.taskType, t.payload, t.retryCount, t.maxRetries)
      && r.nextId == tb.nextId
      && r.rows == tb.rows[id := t.(status := Running, workerId := Some(workerId), startedAt := Some(now))]
    ensures TableInv(tb) ==> TableInv(r)
  {
    var remaining := tb.rows.Keys;
    var best: Option<nat> := None;
    while remaining != {}
      invariant remaining <= tb.rows.Keys
      invariant best.None? ==> forall j :: j in tb.rows && j !in remaining ==> !Due(tb.rows[j], now)
      invariant best.Some? ==> best.value in tb.rows && best.value !in remaining && Due(tb.rows[best.value], now)
      invariant best.Some? ==> forall j :: j in tb.rows && j !in remaining && j != best.value && Due(tb.rows[j], now) ==>
        RanksBefore(best.value, tb.rows[best.value], j, tb.rows[j])
      decreases remaining
    {
      var k := PickOne(remaining);
      var t := tb.rows[k];
      if Due(t, now) {
        if best.None? {
          best := Some(k);
        } else {
          var b := best.value;
          if RanksBefore(k, t, b, tb.rows[b]) {
            forall j | j in tb.rows && j !in remaining && j != b && Due(tb.rows[j], now)
              ensures RanksBefore(k, t, j, tb.rows[j])
            {
              RanksBeforeTransitive(k, t, b, tb.rows[b], j, tb.rows[j]);
            }
            best := Some(k);
          } else {
            RanksBeforeTotal(k, t, b, tb.rows[b]);
          }
        }
      }
      remaining := remaining - {k};
    }
    if best.None? {
      r, claim := tb, None;
    } else {
      var id := best.value;
      var t := tb.rows[id];
      r := Table(tb.rows[id := t.(status := Running, workerId := Some(workerId), startedAt := Some(now))], tb.nextId);
      claim := Some(Claim(id, t.name, t.taskType, t.payload, t.retryCount, t.maxRetries));
    }
  }

  // ---------------------------------------------------------------------------
  // complete_task, fail_task, cancel_task
  // ---------------------------------------------------------------------------

  /**
    `complete_task`: `UPDATE ... WHERE id = ?` setting completed, the completion
    time and `result or {}` as JSON text. No row, no change; any status is overwritten.
  */
  function CompleteTask(tb: Table, id: nat, result: Option<string>, now: int): (r: Table)
    ensures id !in tb.rows ==> r == tb
    ensures id in tb.rows ==>
      && r.rows.Keys == tb.rows.Keys && r.nextId == tb.nextId
      && r.rows[id].status == Completed && r.rows[id].completedAt == Some(now)
      && r.rows[id].result == Some(if result.Some? then result.value else "{}")
      && r.rows[id].(status := tb.rows[id].status, completedAt := tb.rows[id].completedAt,
                     result := tb.rows[id].result) == tb.rows[id]
      && forall j :: j in tb.rows && j != id ==> r.rows[j] == tb.rows[j]
  {
    if id !in tb.rows then tb
    else
      var t := tb.rows[id];
      var done := t.(status := Completed, completedAt := Some(now),
                     result := Some(if result.Some? then result.value else "{}"));
      Table(tb.rows[id := done], tb.nextId)
  }

  /**
    `fail_task` as its retry rule is evidently meant: a task with retries left
    goes back to pending with one more retry counted and its worker and start
    time cleared; otherwise it fails. Both record the error message.
  */
  function FailTask(tb: Table, id: nat, errorMessage: string, now: int): (r: Table)
    ensures id !in tb.rows ==> r == tb
    ensures id in tb.rows ==> r.rows.Keys == tb.rows.Keys && r.nextId == tb.nextId
    ensures id in tb.rows ==>
      var t := tb.rows[id];
      var u := r.rows[id];
      && (forall j :: j in tb.rows && j != id ==> r.rows[j] == tb.rows[j])
      && u.errorMessage == Some(errorMessage) && u.maxRetries == t.maxRetries
      && (t.retryCount < t.maxRetries ==>
            && u.status == Pending && u.retryCount == t.retryCount + 1 && u.workerId.None? && u.startedAt.None?
            && u.(status := t.status, retryCount := t.retryCount, errorMessage := t.errorMessage,
                  workerId := t.workerId, startedAt := t.startedAt) == t)
      && (t.retryCount >= t.maxRetries ==>
            && u.status == Failed && u.retryCount == t.retryCount && u.completedAt == Some(now)
            && u.(status := t.status, completedAt := t.completedAt, errorMessage := t.errorMessage) == t)
  {
    if id !in tb.rows then tb
    else
      var t := tb.rows[id];
      if t.retryCount < t.maxRetries then
        Table(tb.rows[id := t.(status := Pending, retryCount := t.retryCount + 1, errorMessage := Some(errorMessage),
                               workerId := None, startedAt := None)], tb.nextId)
      else
        Table(tb.rows[id := t.(status := Failed, completedAt := Some(now), errorMessage := Some(errorMessage))], tb.nextId)
  }

  /** Under the intended rule a task is never retried more often than its budget allows. */
  lemma FailTaskPreservesInv(tb: Table, id: nat, errorMessage: string, now: int)
    requires TableInv(tb)
    ensures TableInv(FailTask(tb, id, errorMessage, now))
  {
    var r := FailTask(tb, id, errorMessage, now);
    forall j | j in r.rows
      ensures 1 <= j < r.nextId && 0 <= r.rows[j].retryCount
      ensures r.rows[j].retryCount <= r.rows[j].maxRetries || r.rows[j].retryCount == 0
    {
      assert j in tb.rows;
    }
  }

  /** The exception Python raises when `<` compares an `int` with `None` or a `str`. */
  datatype PyError = TypeError

  /**
    `fail_task` as written: it reads `retry_count` from `task[11]` and
    `max_retries` from `task[10]` of the `SELECT *` row, which are the
    `max_retries` and `completed_at` columns. The comparison raises unless both
    are integers.
  */
  function FailTaskAsWritten(tb: Table, id: nat, errorMessage: string, now: int): (r: Result<Table, PyError>)
    ensures id !in tb.rows ==> r == Success(tb)
  {
    if id !in tb.rows then Success(tb)
    else
      var t := tb.rows[id];
      var task := Columns(id, t);
      match (task[11], task[10])
      case (Int(retryCount), Int(maxRetries)) =>
        if retryCount < maxRetries then
          Success(Table(tb.rows[id := t.(status := Pending, retryCount := retryCount + 1,
                                         errorMessage := Some(errorMessage), workerId := None, startedAt := None)],
                        tb.nextId))
        else
          Success(Table(tb.rows[id := t.(status := Failed, completedAt := Some(now),
                                         errorMessage := Some(errorMessage))], tb.nextId))
      case _ => Failure(TypeError)
  }

  /**
    As written, failing an existing task raises `TypeError`: `completed_at` holds
    NULL or a timestamp, never an integer. No task is ever retried or failed.
    (The model reads every row; a row with `T`-separated timestamps makes the
    read itself fail first, outside this model.)
  */
  lemma FailTaskAsWrittenAlwaysRaises(tb: Table, id: nat, errorMessage: string, now: int)
    requires id in tb.rows
    ensures FailTaskAsWritten(tb, id, errorMessage, now) == Failure(TypeError)
  {
    ColumnsLayout(id, tb.rows[id]);
  }

  /**
    The smallest witness: a freshly enqueued task (three retries left) that fails
    once. As written this raises; under the intended rule it is back to pending
    with one retry counted.
  */
  lemma FailTaskWitness(now: int)
    ensures
      var (tb, id) := Enqueue(EmptyTable(), "job", "email", None, DefaultPriority, None, DefaultMaxRetries, now);
      && FailTaskAsWritten(tb, id, "boom", now) == Failure(TypeError)
      && FailTask(tb, id, "boom", now).rows[id].status == Pending
      && FailTask(tb, id, "boom", now).rows[id].retryCount == 1
  {
    var (tb, id) := Enqueue(EmptyTable(), "job", "email", None, DefaultPriority, None, DefaultMaxRetries, now);
    FailTaskAsWrittenAlwaysRaises(tb, id, "boom", now);
  }

  /**
    `cancel_task`: read the row and compare its sixth column with 'pending';
    only then set it cancelled and report `True`.
  */
  function CancelTask(tb: Table, id: nat): (r: (Table, bool))
    ensures r.1 <==> id in tb.rows && tb.rows[id].status == Pending
    ensures !r.1 ==> r.0 == tb
    ensures r.1 ==> r.0 == Table(tb.rows[id := tb.rows[id].(status := Cancelled)], tb.nextId)
  {
    if id in tb.rows && Columns(id, tb.rows[id])[5] == Text(StatusText(Pending)) then
      (Table(tb.rows[id := tb.rows[id].(status := Cancelled)], tb.nextId), true)
    else (tb, false)
  }

  lemma CompleteAndCancelPreserveInv(tb: Table, id: nat, result: Option<string>, now: int)
    requires TableInv(tb)
    ensures TableInv(CompleteTask(tb, id, result, now))
    ensures TableInv(CancelTask(tb, id).0)
  {
    var c := CompleteTask(tb, id, result, now);
    forall j | j in c.rows
      ensures 1 <= j < c.nextId && 0 <= c.rows[j].retryCount
      ensures c.rows[j].retryCount <= c.rows[j].maxRetries || c.rows[j].retryCount == 0
    {
      assert j in tb.rows;
    }
  }

  // ---------------------------------------------------------------------------
  // get_queue_stats, get_tasks_by_status
  // ---------------------------------------------------------------------------

  /** The ids of the rows in a status. */
  function IdsWithStatus(tb: Table, st: TaskStatus): (ids: set<nat>)
    ensures ids <= tb.rows.Keys
    ensures forall id :: id in ids <==> id in tb.rows && tb.rows[id].status == st
  {
    set id | id in tb.rows.Keys && tb.rows[id].status == st
  }

  /**
    `get_queue_stats`: a count for every status, starting from 0 for each and
    overwritten by the `GROUP BY status` counts of the statuses present.
  */
  function QueueStats(tb: Table): (stats: map<string, int>)
    ensures forall st :: StatusText(st) in stats
    ensures forall st :: stats[StatusText(st)] == |IdsWithStatus(tb, st)|
    ensures forall st :: IdsWithStatus(tb, st) == {} ==> stats[StatusText(st)] == 0
    ensures forall k :: k in stats ==> exists st :: StatusText(st) == k
  {
    map[StatusText(Pending) := |IdsWithStatus(tb, Pending)|,
        StatusText(Running) := |IdsWithStatus(tb, Running)|,
        StatusText(Completed) := |IdsWithStatus(tb, Completed)|,
        StatusText(Failed) := |IdsWithStatus(tb, Failed)|,
        StatusText(Cancelled) := |IdsWithStatus(tb, Cancelled)|]
  }

  lemma DisjointUnionSize(a: set<nat>, b: set<nat>)
    requires a !! b
    ensures |a + b| == |a| + |b|
  {
    assert a + b - b == a;
  }

  /** The counts of `get_queue_stats` add up to the number of tasks. */
  lemma QueueStatsTotal(tb: Table)
    ensures
      var stats := QueueStats(tb);
      stats[StatusText(Pending)] + stats[StatusText(Running)] + stats[StatusText(Completed)]
        + stats[StatusText(Failed)] + stats[StatusText(Cancelled)] == |tb.rows|
  {
    var p, ru, co, f, ca := IdsWithStatus(tb, Pending), IdsWithStatus(tb, Running), IdsWithStatus(tb, Completed),
                            IdsWithStatus(tb, Failed), IdsWithStatus(tb, Cancelled);
    DisjointUnionSize(p, ru);
    DisjointUnionSize(p + ru, co);
    DisjointUnionSize(p + ru + co, f);
    DisjointUnionSize(p + ru + co + f, ca);
    StatusPartition(tb);
    var stats := QueueStats(tb);
    assert stats[StatusText(Pending)] == |p| && stats[StatusText(Running)] == |ru|;
    assert stats[StatusText(Completed)] == |co| && stats[StatusText(Failed)] == |f|;
    assert stats[StatusText(Cancelled)] == |ca|;
  }

  lemma StatusPartition(tb: Table)
    ensures tb.rows.Keys == IdsWithStatus(tb, Pending) + IdsWithStatus(tb, Running) + IdsWithStatus(tb, Completed)
                            + IdsWithStatus(tb, Failed) + IdsWithStatus(tb, Cancelled)
  {
  }

  /** The five fields `get_tasks_by_status` reports per task (`task[0]`, `[1]`, `[2]`, `[5]`, `[7]`). */
  datatype Summary = Summary(id: nat, name: string, taskType: string, status: string, createdAt: int)

  function SummaryOf(id: nat, t: Task): Summary {
    Summary(id, t.name, t.taskType, StatusText(t.status), t.createdAt)
  }

  /** `ORDER BY created_at DESC`. */
  ghost predicate NewestFirst(xs: seq<Summary>) {
    forall i, j :: 0 <= i < j < |xs| ==> xs[i].createdAt >= xs[j].createdAt
  }

  ghost predicate DistinctIds(xs: seq<Summary>) {
    forall i, j :: 0 <= i < j < |xs| ==> xs[i].id != xs[j].id
  }

  /** Insert `x` into a newest-first list ahead of every entry no newer than it. */
  function InsertNewestFirst(xs: seq<Summary>, x: Summary): (r: seq<Summary>)
    requires NewestFirst(xs) && DistinctIds(xs)
    requires forall i :: 0 <= i < |xs| ==> xs[i].id != x.id
    ensures NewestFirst(r) && DistinctIds(r)
    ensures |r| == |xs| + 1
    ensures forall y :: y in r <==> y in xs || y == x
  {
    if xs == [] || x.createdAt >= xs[0].createdAt then
      [x] + xs
    else
      var rest := InsertNewestFirst(xs[1..], x);
      forall j | 0 <= j < |rest|
        ensures xs[0].createdAt >= rest[j].createdAt && xs[0].id != rest[j].id
      {
        assert rest[j] in rest;
        if rest[j] != x {
          var m :| 0 <= m < |xs[1..]| && xs[1..][m] == rest[j];
          assert xs[m + 1] == rest[j];
        }
      }
      [xs[0]] + rest
  }

  /** Keeping the first `n` entries of a newest-first list keeps the newest ones. */
  lemma NewestPrefix(xs: seq<Summary>, n: nat)
    requires n <= |xs| && NewestFirst(xs) && DistinctIds(xs)
    ensures NewestFirst(xs[..n]) && DistinctIds(xs[..n])
    ensures forall y :: y in xs[..n] ==> y in xs
    ensures forall y, i :: y in xs && y !in xs[..n] && 0 <= i < n ==> y.createdAt <= xs[..n][i].createdAt
  {
    assert forall m :: 0 <= m < n ==> xs[..n][m] == xs[m];
    forall y, i | y in xs && y !in xs[..n] && 0 <= i < n
      ensures y.createdAt <= xs[..n][i].createdAt
    {
      var j :| 0 <= j < |xs| && xs[j] == y;
      assert xs[..n][i] == xs[i];
    }
  }

  /** `get_tasks_by_status`'s default `limit`. */
  const DefaultLimit: nat := 10

  /**
    `get_tasks_by_status(status, limit)`: the summaries of the tasks in `status`,
    newest first, at most `limit` of them, and none older than one left out.
  */
  method TasksByStatus(tb: Table, status: TaskStatus, limit: nat) returns (r: seq<Summary>)
    ensures |r| <= limit
    ensures NewestFirst(r) && DistinctIds(r)
    ensures forall i :: 0 <= i < |r| ==>
      r[i].id in tb.rows && tb.rows[r[i].id].status == status && r[i] == SummaryOf(r[i].id, tb.rows[r[i].id])
    ensures |r| < limit ==> forall id :: id in IdsWithStatus(tb, status) ==> SummaryOf(id, tb.rows[id]) in r
    ensures forall id, i :: id in IdsWithStatus(tb, status) && SummaryOf(id, tb.rows[id]) !in r && 0 <= i < |r| ==>
      tb.rows[id].createdAt <= r[i].createdAt
  {
    var all: seq<Summary> := [];
    var remaining := tb.rows.Keys;
    while remaining != {}
      invariant remaining <= tb.rows.Keys
      invariant NewestFirst(all) && DistinctIds(all)
      invariant forall y :: y in all ==>
        && y.id in tb.rows && y.id !in remaining && tb.rows[y.id].status == status
        && y == SummaryOf(y.id, tb.rows[y.id])
      invariant forall id :: id in tb.rows && id !in remaining && tb.rows[id].status == status ==>
        SummaryOf(id, tb.rows[id]) in all
      decreases remaining
    {
      var k := PickOne(remaining);
      if tb.rows[k].status == status {
        forall i | 0 <= i < |all| ensures all[i].id != k {
          assert all[i] in all;
        }
        all := InsertNewestFirst(all, SummaryOf(k, tb.rows[k]));
      }
      remaining := remaining - {k};
    }
    var n := if limit < |all| then limit else |all|;
    r := all[..n];
    NewestPrefix(all, n);
  }
}

=== FILE: text.dfy ===
/**
  The string operations the worker applies to statement text and tokens:
  `str.lower`, `str.lstrip`, `str.startswith`, `str.endswith`, and the
  statement classifier `_is_select_query` built from them.
*/
module Text {

  /** Python's `str.isspace` for one code point: what `lstrip()` with no argument removes. */
  predicate IsSpace(c: char) {
    var n := c as int;
    || (9 <= n <= 13)          // \t \n \v \f \r
    || (0x1C <= n <= 0x20)     // file/group/record/unit separators, space
    || n == 0x85 || n == 0xA0 || n == 0x1680
    || (0x2000 <= n <= 0x200A)
    || n == 0x2028 || n == 0x2029 || n == 0x202F || n == 0x205F || n == 0x3000
  }

  /**
    Lower-casing of one character. Only ASCII letters are mapped; no other
    character lowers to one of the letters of "select", and the classifier
    looks at nothing else, so this is exact for the use made of it here.
  */
  function LowerChar(c: char): char {
    if 'A' <= c <= 'Z' then (c as int + 32) as char else c
  }

  function Lower(s: string): (r: string)
    ensures |r| == |s|
    ensures forall i :: 0 <= i < |s| ==> r[i] == LowerChar(s[i])
  {
    seq(|s|, i requires 0 <= i < |s| => LowerChar(s[i]))
  }

  /** `s.lstrip()`: the suffix left after removing every leading whitespace character. */
  function LStrip(s: string): (r: string)
    ensures |r| <= |s| && r == s[|s| - |r|..]
    ensures forall i :: 0 <= i < |s| - |r| ==> IsSpace(s[i])
    ensures r == [] || !IsSpace(r[0])
  {
    if s != [] && IsSpace(s[0]) then LStrip(s[1..]) else s
  }

  predicate StartsWith(s: string, prefix: string) {
    |prefix| <= |s| && s[..|prefix|] == prefix
  }

  predicate EndsWith(s: string, suffix: string) {
    |suffix| <= |s| && s[|s| - |suffix|..] == suffix
  }

  const SelectKeyword: string := "select"

  /** `_is_select_query`: `query.lower().lstrip().startswith("select")`. */
  predicate IsSelectQuery(query: string) {
    StartsWith(LStrip(Lower(query)), SelectKeyword)
  }

  /**
    Reference reading of the classifier: after `k` whitespace characters the
    query spells "select" in any mix of upper and lower case.
  */
  ghost predicate SelectAt(query: string, k: int) {
    && 0 <= k && k + |SelectKeyword| <= |query|
    && (forall i :: 0 <= i < k ==> IsSpace(query[i]))
    && (forall i :: 0 <= i < |SelectKeyword| ==> LowerChar(query[k + i]) == SelectKeyword[i])
  }

  lemma LowerKeepsSpace(c: char)
    ensures IsSpace(LowerChar(c)) <==> IsSpace(c)
  {
  }

  /** The classifier accepts exactly the queries that spell "select" after leading whitespace. */
  lemma IsSelectQueryIff(query: string)
    ensures IsSelectQuery(query) <==> exists k :: SelectAt(query, k)
  {
    var low := Lower(query);
    var stripped := LStrip(low);
    var m := |low| - |stripped|;
    assert stripped == low[m..];
    if IsSelectQuery(query) {
      forall i | 0 <= i < m ensures IsSpace(query[i]) {
        LowerKeepsSpace(query[i]);
      }
      forall i | 0 <= i < |SelectKeyword| ensures LowerChar(query[m + i]) == SelectKeyword[i] {
        assert stripped[i] == low[m + i];
      }
      assert SelectAt(query, m);
    }
    if k :| SelectAt(query, k) {
      assert LowerChar(query[k + 0]) == SelectKeyword[0] == 's';
      LowerKeepsSpace(query[k]);
      assert m <= k;
      LowerKeepsSpace(query[m]);
      assert stripped[0] == low[m];
      assert m == k;
      assert stripped[..|SelectKeyword|] == SelectKeyword;
    }
  }
}

=== FILE: tokens.dfy ===
/**
  Request tokens. The source mints `uuid.uuid4().hex` and appends "-silent"
  when the caller will not be handed the token. The model replaces the random
  UUID by the hexadecimal spelling of a counter, which makes "tokens never
  collide" a theorem instead of a probability.
*/
module Tokens {
  import opened Text

  type Token = string

  /** `SILENT_TOKEN_SUFFIX`. */
  const SilentSuffix: string := "-silent"

  predicate IsHexDigit(c: char) {
    '0' <= c <= '9' || 'a' <= c <= 'f'
  }

  function HexDigit(d: nat): char
    requires d < 16
  {
    if d < 10 then ('0' as int + d) as char else ('a' as int + d - 10) as char
  }

  /** Lower-case hexadecimal spelling of `n`, most significant digit first. */
  function Hex(n: nat): (h: string)
    ensures |h| >= 1
    ensures n >= 16 ==> |h| >= 2
    ensures forall i :: 0 <= i < |h| ==> IsHexDigit(h[i])
    decreases n
  {
    if n < 16 then [HexDigit(n)] else Hex(n / 16) + [HexDigit(n % 16)]
  }

  /** Different counters spell differently. */
  lemma {:induction false} HexInjective(a: nat, b: nat)
    requires Hex(a) == Hex(b)
    ensures a == b
    decreases a
  {
    if a >= 16 && b >= 16 {
      var ha, hb := Hex(a), Hex(b);
      assert ha[|ha| - 1] == HexDigit(a % 16) && hb[|hb| - 1] == HexDigit(b % 16);
      assert a % 16 == b % 16;
      assert Hex(a / 16) == ha[..|ha| - 1] == hb[..|hb| - 1] == Hex(b / 16);
      HexInjective(a / 16, b / 16);
    }
  }

  /** The token minted from counter `k`; silent tokens carry the suffix. */
  function MintToken(k: nat, silent: bool): Token {
    if silent then Hex(k) + SilentSuffix else Hex(k)
  }

  /** `token.endswith(SILENT_TOKEN_SUFFIX)` recognises exactly the silent tokens. */
  lemma MintTokenSilentIff(k: nat, silent: bool)
    ensures EndsWith(MintToken(k, silent), SilentSuffix) <==> silent
  {
    var t := MintToken(k, silent);
    if silent {
      assert t[|t| - |SilentSuffix|..] == SilentSuffix;
    } else {
      assert IsHexDigit(t[|t| - 1]) && !IsHexDigit(SilentSuffix[|SilentSuffix| - 1]);
    }
  }

  /** Two minted tokens are equal only when minted from the same counter with the same silence. */
  lemma MintTokenInjective(a: nat, sa: bool, b: nat, sb: bool)
    requires MintToken(a, sa) == MintToken(b, sb)
    ensures a == b && sa == sb
  {
    MintTokenSilentIff(a, sa);
    MintTokenSilentIff(b, sb);
    var t := MintToken(a, sa);
    if sa {
      assert Hex(a) == t[..|t| - |SilentSuffix|] == Hex(b);
    }
    HexInjective(a, b);
  }

  /** `t` was minted, silent or not, from one of the counters `0 .. bound - 1`. */
  ghost predicate MintedBelow(t: Token, bound: nat)
    decreases bound
  {
    bound > 0 && (t == MintToken(bound - 1, false) || t == MintToken(bound - 1, true) || MintedBelow(t, bound - 1))
  }

  /** The reference reading: some counter below `bound` minted `t`. */
  lemma {:induction false} MintedBelowIff(t: Token, bound: nat)
    ensures MintedBelow(t, bound) <==> exists k: nat, silent: bool :: k < bound && t == MintToken(k, silent)
    decreases bound
  {
    if bound > 0 {
      MintedBelowIff(t, bound - 1);
      if t == MintToken(bound - 1, false) {
        assert bound - 1 < bound && t == MintToken(bound - 1, false);
      }
      if t == MintToken(bound - 1, true) {
        assert bound - 1 < bound && t == MintToken(bound - 1, true);
      }
      if k: nat, silent: bool :| k < bound && t == MintToken(k, silent) {
        if k < bound - 1 {
          assert k < bound - 1 && t == MintToken(k, silent);
        }
      }
    }
  }

  /** A token minted from counter `k` was not minted from any counter below it. */
  lemma {:induction false} MintTokenFreshBelow(k: nat, silent: bool, bound: nat)
    requires bound <= k
    ensures !MintedBelow(MintToken(k, silent), bound)
    decreases bound
  {
    if bound > 0 {
      if MintToken(k, silent) == MintToken(bound - 1, false) {
        MintTokenInjective(k, silent, bound - 1, false);
      }
      if MintToken(k, silent) == MintToken(bound - 1, true) {
        MintTokenInjective(k, silent, bound - 1, true);
      }
      MintTokenFreshBelow(k, silent, bound - 1);
    }
  }

  /** A token minted from the current counter was never minted before it. */
  lemma MintTokenFresh(bound: nat, silent: bool)
    ensures !MintedBelow(MintToken(bound, silent), bound)
  {
    MintTokenFreshBelow(bound, silent, bound);
  }

  /** Raising the bound keeps a token minted. */
  lemma {:induction false} MintedBelowGrows(t: Token, n: nat, m: nat)
    requires MintedBelow(t, n) && n <= m
    ensures MintedBelow(t, m)
    decreases m - n
  {
    if n < m {
      MintedBelowGrows(t, n, m - 1);
    }
  }
}

=== FILE: wrappers.dfy ===
/** Option and Result, the two failure-carrying shapes used throughout the model. */
module Wrappers {

  /** A value that may be absent (Python's `None`). */
  datatype Option<+T> = None | Some(value: T)

  /** Either a value or the error the source would raise instead of returning it. */
  datatype Result<+R, +E> = Success(value: R) | Failure(error: E)
}
